=== FILE: README.md ===
# VmkitDenseMap in Dafny

This project models `vmkit::VmkitDenseMap`, the open-addressed hash table the
runtime uses for symbol and type lookups. It is a copy of LLVM's `DenseMap`.
The table is an array of buckets whose length is zero or a power of two. A
key goes in the first free bucket of its quadratic probe chain: bucket
`(hash + 1 + 2 + ... + i) & (NumBuckets - 1)` at the i-th probe. An erased
entry leaves a tombstone, which keeps later entries on the same chain
reachable. An insertion grows the array when the table would be three
quarters full, and rehashes it when too few empty buckets would remain.
`clear` shrinks a large table that has become mostly empty.

How the model is built:

- The table is a value: `Table.DenseMap(buckets, numEntries, numTombstones)`.
- Each bucket is `Empty`, `Tombstone` or `Occupied(key, value)`. This tag
  takes the place of the two reserved sentinel keys of the key traits.
- Every operation is a function from the table before the call to the table
  after it, paired with the call's result. A bucket pointer becomes a bucket
  index, and an iterator becomes a position together with the end position.
- The hash of the key traits is a parameter, `hash: K -> Hash32`, which stands
  for any 32-bit hash function.
- `ValueT()`, the default-constructed value, is a parameter named `default`.
- The meaning of a table is `Buckets.Contents`, the map from keys to values
  read off its occupied buckets. Contracts are stated against it.
- `Table.Valid` is the invariant every operation keeps:
  - the array size is legal;
  - no key is stored twice;
  - every key is reachable on its probe chain before any empty bucket;
  - the counters match the buckets;
  - some bucket is still empty;
  - the table is less than three quarters full.

The probe arithmetic follows the C++. `BucketNo` and `ProbeAmt` are
unsigned 32-bit and wrap. The bucket is `BucketNo & (NumBuckets - 1)`,
with `&` modelled bit by bit (`Probing.BitAnd`); for a power-of-two
`NumBuckets` it equals the remainder modulo `NumBuckets`, which the
proofs use. `Probing` proves
that the first n probes of an n-bucket table visit every bucket once, for
every 32-bit starting hash. Probing therefore ends whenever an empty bucket
exists. That fact is the termination argument for `LookupBucketFor`.

Three behaviours of the code are worth knowing:

- `InsertIntoBucket` makes its second check (rehash at the same size)
  after the first check (double the size) in every case. After a doubling
  the second check can never fire, which `VmkitDenseMap.MakeRoom` proves.
- The array can have zero buckets. That is the state after `init(0)`, and
  lookups on it report that nothing is there.
- The second check, as written, cannot keep tombstones from using up the
  last empty bucket of a table of 2 or 4 buckets. The model adds the one
  missing case and otherwise takes the code's decision. See Findings below.

## Model

| member | source | states |
|---|---|---|
| Probing.SlotsDistinct | include/vmkit/VmkitDenseMap.h:301-327 | Two distinct probes among the first n of an n-bucket table (n a power of two, at most 2^31) examine different buckets, whatever the 32-bit hash and with `BucketNo` wrapping. |
| Probing.SlotsCover | include/vmkit/VmkitDenseMap.h:301-327 | Every bucket of an n-bucket table is examined by one of the first n probes of every chain, so `while (1)` meets any empty bucket. |
| BucketLookup.EmptyOnEveryChain | include/vmkit/VmkitDenseMap.h:301-317 | A table that keeps one empty bucket has an empty bucket on every probe chain within n probes, so the probe loop ends. |
| BucketLookup.Lookup | include/vmkit/VmkitDenseMap.h:283-291 | With no buckets allocated the lookup reports no bucket at all; otherwise it returns a bucket index inside the array. |
| BucketLookup.ProbeSpec | include/vmkit/VmkitDenseMap.h:283-328 | The lookup reports found exactly when the key is stored, with the bucket that holds it. Otherwise the bucket it returns is the first non-occupied bucket of the key's chain: the first tombstone if one came before the terminating empty bucket. |
| Probing.MaskIsMod | include/vmkit/VmkitDenseMap.h:302 | For a power-of-two bucket count, `BucketNo & (NumBuckets-1)` is `BucketNo` modulo `NumBuckets`, with `&` taken bit by bit. |
| BucketLookup.MaskedBucket | include/vmkit/VmkitDenseMap.h:302 | The bucket the loop examines, the masked `BucketNo`, is the bucket of the i-th probe of the key's chain. |
| BucketLookup.ProbeAdvance | include/vmkit/VmkitDenseMap.h:326 | `BucketNo += ProbeAmt++` in 32 bits takes the loop from probe i to probe i + 1, and `ProbeAmt` does not wrap. |
| BucketLookup.ProbeStep | include/vmkit/VmkitDenseMap.h:319-326 | A probe that meets a tombstone or another key moves the search to the next probe, remembering the first tombstone, and an empty bucket still lies ahead. |
| BucketLookup.ProbeLoop | include/vmkit/VmkitDenseMap.h:301-327 | The `while (1)` loop with 32-bit `BucketNo` and `ProbeAmt` ends, and returns what the probe-chain definition of the lookup returns. |
| BucketLookup.LookupBucketFor | include/vmkit/VmkitDenseMap.h:283-328 | The C++ loop with its 32-bit `BucketNo += ProbeAmt++` ends, and reports found exactly for stored keys (with their bucket) and otherwise the first free bucket of the chain, or no bucket when none is allocated. |
| Iterators.Advance | include/vmkit/VmkitDenseMap.h:499-507 | `AdvancePastEmptyBuckets` stops at the first occupied bucket at or after the position, or at the end, skipping only empty and tombstone buckets. |
| Iterators.At | include/vmkit/VmkitDenseMap.h:464-466 | A constructed iterator rests on the first occupied bucket at or after its starting position, or at the end when there is none. |
| Iterators.Next | include/vmkit/VmkitDenseMap.h:489-493 | `operator++` moves strictly forward to the next occupied bucket, skipping only unoccupied ones, or to the end. |
| Iterators.WalkSpec | include/vmkit/VmkitDenseMap.h:489-507 | Iterating from a position visits exactly the occupied buckets at or after it, in increasing order, and as many as are counted after it. |
| Iterators.WalkSkip | include/vmkit/VmkitDenseMap.h:464-466 | Starting an iteration after the constructor's skip visits the same buckets as starting before it. |
| Buckets.HasEmptyIffRoom | include/vmkit/VmkitDenseMap.h:244-249 | An empty bucket remains exactly when entries and tombstones together number fewer than the buckets. |
| Buckets.ShapedRemove | include/vmkit/VmkitDenseMap.h:188-198 | Turning an occupied bucket into a tombstone removes exactly its key and keeps every other key reachable on its chain. |
| Buckets.ShapedPlace | include/vmkit/VmkitDenseMap.h:260-266 | Writing a new key into the first free bucket of its chain adds exactly that key and keeps every stored key reachable. |
| Buckets.ContentsSize | include/vmkit/VmkitDenseMap.h:104-105 | The number of stored keys equals the number of occupied buckets. |
| Table.RoomLeft | include/vmkit/VmkitDenseMap.h:241-258 | In a valid table, live entries plus tombstones are fewer than the buckets, and an unallocated table counts nothing. |
| VmkitDenseMap.Init | include/vmkit/VmkitDenseMap.h:330-347 | `init(InitBuckets)` gives `InitBuckets` buckets that store no key, with both counters zero, and leaves an empty bucket whenever any bucket is allocated. |
| VmkitDenseMap.InitSpec | include/vmkit/VmkitDenseMap.h:330-347 | A freshly initialised table satisfies the invariant for every hash function and stores nothing. |
| VmkitDenseMap.SizeSpec | include/vmkit/VmkitDenseMap.h:104-105 | `size()` is the number of stored keys, and `empty()` holds exactly when nothing is stored. |
| VmkitDenseMap.Count | include/vmkit/VmkitDenseMap.h:138-141 | `count` is true exactly when the key is stored. |
| VmkitDenseMap.End | include/vmkit/VmkitDenseMap.h:94-96 | `end()` is the position one past the last bucket, from which iteration visits nothing. |
| VmkitDenseMap.Begin | include/vmkit/VmkitDenseMap.h:90-93 | `begin()` rests on an occupied bucket or at the end. |
| VmkitDenseMap.BeginSpec | include/vmkit/VmkitDenseMap.h:90-96 | The empty-table shortcut of `begin()` agrees with skipping from bucket 0, and `begin() == end()` exactly when nothing is stored. |
| VmkitDenseMap.Find | include/vmkit/VmkitDenseMap.h:143-148 | `find` returns an iterator at the bucket holding the key and its stored value, or `end()` when the key is absent. |
| VmkitDenseMap.LookupOr | include/vmkit/VmkitDenseMap.h:156-163 | `lookup` returns the stored value, or the default value when the key is absent. |
| VmkitDenseMap.TombstonedSpec | include/vmkit/VmkitDenseMap.h:193-196 | Tombstoning an occupied bucket with `--NumEntries; ++NumTombstones` removes exactly its key and keeps the table valid. |
| VmkitDenseMap.Erase | include/vmkit/VmkitDenseMap.h:188-198 | `erase(key)` returns true exactly when the key was stored. It turns exactly the key's bucket, the one `find` returns, into a tombstone and changes no other bucket. It removes exactly that key and moves one entry to the tombstone count, so the key is no longer counted. An absent key leaves the table unchanged. |
| VmkitDenseMap.EraseAt | include/vmkit/VmkitDenseMap.h:199-205 | `erase(iterator)` turns exactly the bucket the iterator points at into a tombstone, changing no other bucket. It removes exactly that key and moves one entry to the tombstone count. |
| Growth.Doubling | include/vmkit/VmkitDenseMap.h:356-358 | The doubling loop ends with a power of two that is at least both its start and `AtLeast`. It doubled only while below `AtLeast`. |
| Growth.GrowSize | include/vmkit/VmkitDenseMap.h:349-358 | The new size is a power of two of at most 2^31. It is at least 64, at least the old size and at least `AtLeast`. It is the old size (raised to 64) unless half of it is below `AtLeast`. |
| Growth.ReinsertStep | include/vmkit/VmkitDenseMap.h:370-378 | An old entry not yet reinserted finds an empty bucket in the new array, and writing it there adds exactly that entry. |
| Growth.Reinsert | include/vmkit/VmkitDenseMap.h:367-384 | Reinserting the old array's live entries in array order yields a valid array with exactly the old contents and no tombstones. |
| Growth.Grow | include/vmkit/VmkitDenseMap.h:349-396 | `grow` yields a valid table of `GrowSize` buckets with the same entries and entry count and no tombstones. |
| Growth.CeilLog2 | include/vmkit/VmkitDenseMap.h:402-403 | `Log2_32_Ceil(x)` is the least k with x at most 2^k. |
| Growth.ShrinkSize | include/vmkit/VmkitDenseMap.h:402-403 | The shrunk size is a power of two of at least 64 and at least twice the entry count. It is 64 for at most 32 entries and below four times the entry count otherwise. |
| VmkitDenseMap.GrowAndLook | include/vmkit/VmkitDenseMap.h:251-258 | Growing during an insertion keeps the contents and drops the tombstones. The repeated lookup then hands back a free bucket for the new key. |
| VmkitDenseMap.LoadCheck | include/vmkit/VmkitDenseMap.h:250-254 | When `NumEntries*4 >= NumBuckets*3`, counting the new entry, the table grows to `GrowSize(n, 2n)` and loses its tombstones; otherwise nothing changes. Afterwards the table is below three quarters load and the entry plus the tombstones fit. |
| VmkitDenseMap.TombstoneCheck | include/vmkit/VmkitDenseMap.h:255-258 | The table is rehashed at `GrowSize(n, n)` without tombstones when fewer than `NumBuckets/8` buckets would stay empty, as in the code, or when none would, which is the correction. Otherwise nothing changes. Either way an empty bucket remains once the new entry is written. |
| VmkitDenseMap.NoRehashAfterDoubling | include/vmkit/VmkitDenseMap.h:250-258 | After the load check has doubled the table, at least an eighth of the buckets stay empty, so the second check's `<` test does not fire. |
| VmkitDenseMap.MakeRoom | include/vmkit/VmkitDenseMap.h:239-258 | Both checks follow the growth policy: at three quarters load the size becomes `GrowSize(n, 2n)`; otherwise, with too few empty buckets, `GrowSize(n, n)`; either way without tombstones. A table that needs neither is left as it is, with the caller's bucket. The contents never change, and the re-looked-up bucket is free with room to spare. |
| VmkitDenseMap.Commit | include/vmkit/VmkitDenseMap.h:260-266 | The pair is written into the bucket the lookup returned (the first tombstone of the chain, if any) and no other bucket changes. Exactly that key is added, one more entry is counted, and the tombstone count drops by one exactly when a tombstone was reused. |
| VmkitDenseMap.InsertIntoBucket | include/vmkit/VmkitDenseMap.h:239-267 | Inserting an absent key leaves a valid table holding exactly the old entries plus the new pair, with one more entry counted and an empty bucket left. The size follows the growth policy. When no growth is needed, the pair goes into the bucket `LookupBucketFor` returned, nothing else changes, and a reused tombstone is uncounted. |
| VmkitDenseMap.Insert | include/vmkit/VmkitDenseMap.h:168-178 | `insert` returns false and leaves the table unchanged for a stored key. For a new key it returns true, stores exactly the new pair and counts it. Either way the iterator is at the key's bucket. |
| VmkitDenseMap.FindAndConstruct | include/vmkit/VmkitDenseMap.h:214-220 | `FindAndConstruct` leaves a table that stores the key unchanged. Otherwise it inserts the key with the default value. It returns the key's bucket. |
| VmkitDenseMap.Index | include/vmkit/VmkitDenseMap.h:222-224 | `operator[]` yields the stored value, or the default value, which is then stored. For a stored key the table, its buckets and its counters are left exactly as they were; otherwise only the new key is added. |
| VmkitDenseMap.Resize | include/vmkit/VmkitDenseMap.h:107-111 | `resize` never shrinks and never changes the contents. It grows to `GrowSize` of the truncated 32-bit request only when the request exceeds the current size. |
| VmkitDenseMap.ShrinkAndClear | include/vmkit/VmkitDenseMap.h:398-435 | `shrink_and_clear` leaves an all-empty array of `ShrinkSize(NumEntries)` buckets, strictly smaller than before, with both counters zero. |
| VmkitDenseMap.EmptyBuckets | include/vmkit/VmkitDenseMap.h:122-134 | The clearing loop empties every bucket, keeps the size, and meets exactly `NumEntries` live entries. This is the `Node count imbalance` assertion. |
| VmkitDenseMap.Clear | include/vmkit/VmkitDenseMap.h:113-135 | `clear` leaves a valid table with every bucket empty. It shrinks, to `ShrinkSize`, exactly when it held something, `NumEntries*4 < NumBuckets` and `NumBuckets > 64`. Otherwise the size is kept, and an already clear table is returned unchanged. |
| VmkitDenseMap.Iterate | include/vmkit/VmkitDenseMap.h:489-507 | The loop from `begin()` to `end()` visits exactly the positions of the walk from bucket 0, in order. |
| VmkitDenseMap.WalkEntries | include/vmkit/VmkitDenseMap.h:90-96 | The walk from bucket 0 of a valid table reads exactly the stored entries, each once, in array order, `size()` of them. |
| VmkitDenseMap.Entries | include/vmkit/VmkitDenseMap.h:90-96 | Iterating over a valid table visits exactly the occupied buckets, in increasing order and `size()` of them, and reads at each visited bucket the pair stored there, so it reads exactly the stored key/value pairs in array order. |
| SmallTables.TombstoneCheckAsWritten | include/vmkit/VmkitDenseMap.h:255-258 | The check as written, with `<`, keeps an empty bucket only for tables of at least 8 buckets. Below that, the entry and the tombstones may fill the array. |
| SmallTables.InsertIntoBucketAsWritten | include/vmkit/VmkitDenseMap.h:239-267 | Insertion with the check as written stores the pair and keeps the counters right, but only bounds entries plus tombstones by the bucket count. |
| SmallTables.CorrectionOnlyBelowEight | include/vmkit/VmkitDenseMap.h:255-258 | From 8 buckets up the corrected check and the check as written decide the same way, so the correction changes only tables of 2 or 4 buckets. |
| Growth.GrowLoopNeverEnds | include/vmkit/VmkitDenseMap.h:353-358 | With `AtLeast` above 2^31, every turn of the 32-bit `NumBuckets <<= 1` leaves 0 or a power of two of at most 2^31, so `NumBuckets < AtLeast` holds forever. |
| SmallTables.SmallTableLosesLastEmptyBucket | include/vmkit/VmkitDenseMap.h:255 | A valid two-bucket table holding one tombstone has no empty bucket after one insertion. No probe for an absent key can then end. |

## Left out

- Memory management is not modelled. That covers `operator new`/`delete`, placement construction and destructor calls, the `IsPrecompiled` flag, and the `0x5a` fill of freed arrays in debug builds. Allocation is a fresh sequence.
- `isPointerIntoBucketsArray`, `getPointerIntoBucketsArray`, `getMemorySize` and `swap` are not modelled. They concern addresses and memory sizes, not the table's contents.
- The range `insert(I, E)` is not modelled. It is a loop of single `insert` calls.
- The `const` overloads of `begin`, `end` and `find` and the `const_iterator` are not modelled separately. They behave like the non-const versions.
- Iterator dereference, postfix `operator++`, and `operator==` are not modelled separately. The model reads the pair at `ptr`, and compares `ptr` fields the way the C++ compares `Ptr`.
- Writes through the reference returned by `operator[]`/`FindAndConstruct` are not modelled. The model returns the value and the bucket index.
- The sentinel keys of the key traits are replaced by the bucket tag. So are the `vmkIsEqual` comparisons with the empty and tombstone keys (lines 311, 321, 370 and 504), and the debug assertion that a key is never a sentinel. The hash is any function into 32-bit values.
- The key match `vmkIsEqual(ThisBucket->first, Val)` (line 304) is Dafny equality on keys. This assumes that `vmkIsEqual` is an equivalence that equates only keys with the same `getHashValue`, as any hash table requires of its traits.
- The constructor `VmkitDenseMap(NumInitBuckets)` (lines 66-69) is `init` with `IsPrecompiled` cleared, and is modelled by `VmkitDenseMap.Init`. The destructor only releases memory and is not modelled.
- `lib/Mvm/GCMmap2/gccollector.cpp` does not use the table and is not part of this model.
- VmkitDenseMap.Insert: requires fewer than 2^31 buckets. At 2^31 the C++ products `NumEntries*4` and `NumBuckets*3` wrap in 32 bits, and `grow(NumBuckets * 2)` asks for 0 buckets.
- VmkitDenseMap.InsertIntoBucket: requires fewer than 2^31 buckets, for the same 32-bit wrap-around as `Insert`.
- VmkitDenseMap.MakeRoom: requires fewer than 2^31 buckets, for the same 32-bit wrap-around as `Insert`.
- VmkitDenseMap.LoadCheck: requires fewer than 2^31 buckets, for the same 32-bit wrap-around as `Insert`.
- VmkitDenseMap.FindAndConstruct: requires fewer than 2^31 buckets, for the same 32-bit wrap-around as `Insert`.
- VmkitDenseMap.Index: requires fewer than 2^31 buckets, for the same 32-bit wrap-around as `Insert`.
- VmkitDenseMap.Clear: requires `NumEntries*4` to fit in 32 bits. Otherwise the shrink test wraps, and the shrunk size would need a shift by 32 or more.
- VmkitDenseMap.Resize: requires the request, truncated to 32 bits, to be at most 2^31 when it exceeds the current size. Past that, the doubling loop of `grow` never ends, because `NumBuckets <<= 1` reaches 0.
- Growth.Grow: requires `AtLeast` to be at most 2^31, for the same reason as `Resize`.

## Findings

| source | as written | input that shows it | evidently intended | confidence | as-written member | corrected member |
|---|---|---|---|---|---|---|
| include/vmkit/VmkitDenseMap.h:255 | `if (NumBuckets-(NumEntries+NumTombstones) < NumBuckets/8)` rehashes only when fewer than `NumBuckets/8` buckets would stay empty. With 2 or 4 buckets that bound is 0, so the test never fires. | `VmkitDenseMap(2)`. Insert a key with hash 1, then erase it, leaving `[Empty, Tombstone]`. Insert a key with hash 0: it takes the empty bucket, giving `[Occupied, Tombstone]`. Any later lookup of an absent key probes forever. | The comment above the check says a table filled with tombstones makes lookups loop forever, so the rehash must also fire when no bucket would stay empty. The model tests `< NumBuckets/8 ||` no empty bucket left, which decides as the code does from 8 buckets up. | not executed | SmallTables.SmallTableLosesLastEmptyBucket | VmkitDenseMap.TombstoneCheck |
| include/vmkit/VmkitDenseMap.h:108-110 | `resize(Size)` calls `grow(Size)` whenever `Size > NumBuckets`. For an `AtLeast` above 2^31, `NumBuckets <<= 1` in `grow` (line 358) goes from 2^31 to 0 and stays there, so the loop never ends. | `resize(0x80000001)` on any table: `grow` doubles 64 up to 2^31, then to 0, forever. | `grow` is only ever asked for at most 2^31 buckets, which its doubling loop can reach. `Growth.Doubling` proves that the loop then ends at the least power of two covering `AtLeast`. `VmkitDenseMap.Resize` requires this bound. | not executed | Growth.GrowLoopNeverEnds | Growth.Doubling |

=== FILE: buckets.dfy ===
/**
  The bucket array of the dense map and its abstraction as a `map`.

  The C++ table marks free buckets with two reserved key values, the empty
  key and the tombstone key.  Here a bucket is a tagged value instead, so no
  application key can collide with a marker; everything else (which slots are
  free, which were freed by `erase`) is kept exactly.
*/
module Buckets {
  import opened Probing

  datatype Bucket<K, V> = Empty | Tombstone | Occupied(key: K, value: V) {
    function Tag(): Tag {
      match this
      case Empty => EmptyTag
      case Tombstone => TombstoneTag
      case Occupied(_, _) => OccupiedTag
    }
  }

  datatype Tag = EmptyTag | TombstoneTag | OccupiedTag

  /** Number of buckets carrying the given tag. */
  function TagCount<K, V>(b: seq<Bucket<K, V>>, t: Tag): nat {
    if |b| == 0 then 0
    else TagCount(b[..|b| - 1], t) + (if b[|b| - 1].Tag() == t then 1 else 0)
  }

  /** A freshly allocated array: every key initialised to the empty key. */
  function Fill<K, V>(n: nat): (b: seq<Bucket<K, V>>)
    ensures |b| == n
    ensures forall s :: 0 <= s < n ==> b[s] == Empty
  {
    seq(n, _ => Empty)
  }

  /** No key is stored in two buckets. */
  ghost predicate Unique<K, V>(b: seq<Bucket<K, V>>) {
    forall i, j :: 0 <= i < |b| && 0 <= j < |b| && b[i].Occupied? && b[j].Occupied? && b[i].key == b[j].key ==> i == j
  }

  /** The key/value pairs the table holds. */
  ghost function Contents<K, V>(b: seq<Bucket<K, V>>): map<K, V>
    requires Unique(b)
  {
    map i | 0 <= i < |b| && b[i].Occupied? :: b[i].key := b[i].value
  }

  // ---------------------------------------------------------------------------
  // Counting

  lemma {:induction false} CountUpdate<K, V>(b: seq<Bucket<K, V>>, s: nat, x: Bucket<K, V>, t: Tag)
    requires s < |b|
    ensures TagCount(b[s := x], t) + (if b[s].Tag() == t then 1 else 0)
         == TagCount(b, t) + (if x.Tag() == t then 1 else 0)
    decreases |b|
  {
    var b' := b[s := x];
    if s < |b| - 1 {
      assert b'[..|b'| - 1] == b[..|b| - 1][s := x];
      CountUpdate(b[..|b| - 1], s, x, t);
    } else {
      assert b'[..|b'| - 1] == b[..|b| - 1];
    }
  }

  lemma {:induction false} CountTotal<K, V>(b: seq<Bucket<K, V>>)
    ensures TagCount(b, EmptyTag) + TagCount(b, TombstoneTag) + TagCount(b, OccupiedTag) == |b|
    decreases |b|
  {
    if |b| > 0 {
      CountTotal(b[..|b| - 1]);
    }
  }

  /** Some bucket carries a tag exactly when its count is positive. */
  lemma {:induction false} CountPositive<K, V>(b: seq<Bucket<K, V>>, t: Tag)
    ensures TagCount(b, t) > 0 <==> exists s :: 0 <= s < |b| && b[s].Tag() == t
    decreases |b|
  {
    if |b| > 0 {
      var p := b[..|b| - 1];
      CountPositive(p, t);
      if TagCount(p, t) > 0 {
        var s :| 0 <= s < |p| && p[s].Tag() == t;
        assert b[s].Tag() == t;
      }
      if exists s :: 0 <= s < |b| && b[s].Tag() == t {
        var s :| 0 <= s < |b| && b[s].Tag() == t;
        if s < |p| {
          assert p[s].Tag() == t;
        }
      }
    }
  }

  lemma {:induction false} CountPrefixMono<K, V>(b: seq<Bucket<K, V>>, i: nat, j: nat, t: Tag)
    requires i <= j <= |b|
    ensures TagCount(b[..i], t) <= TagCount(b[..j], t)
    decreases j - i
  {
    if i < j {
      CountPrefixMono(b, i, j - 1, t);
      assert b[..j][..j - 1] == b[..j - 1];
    }
  }

  /** Extending a prefix by one bucket adds that bucket to the count. */
  lemma CountPrefixStep<K, V>(b: seq<Bucket<K, V>>, i: nat, t: Tag)
    requires i < |b|
    ensures TagCount(b[..i + 1], t) == TagCount(b[..i], t) + (if b[i].Tag() == t then 1 else 0)
  {
    assert b[..i + 1][..i] == b[..i];
  }

  lemma {:induction false} CountFill<K, V>(n: nat)
    ensures TagCount(Fill<K, V>(n), EmptyTag) == n
    ensures TagCount(Fill<K, V>(n), TombstoneTag) == 0
    ensures TagCount(Fill<K, V>(n), OccupiedTag) == 0
  {
    if n > 0 {
      CountFill<K, V>(n - 1);
      assert Fill<K, V>(n)[..n - 1] == Fill<K, V>(n - 1);
    }
  }

  /** An array with no empty bucket has used every bucket for entries or tombstones. */
  lemma HasEmptyIffRoom<K, V>(b: seq<Bucket<K, V>>)
    ensures (exists s :: 0 <= s < |b| && b[s].Empty?)
        <==> TagCount(b, OccupiedTag) + TagCount(b, TombstoneTag) < |b|
  {
    CountTotal(b);
    CountPositive(b, EmptyTag);
    if exists s :: 0 <= s < |b| && b[s].Empty? {
      var s :| 0 <= s < |b| && b[s].Empty?;
      assert b[s].Tag() == EmptyTag;
    }
    if TagCount(b, EmptyTag) > 0 {
      var s :| 0 <= s < |b| && b[s].Tag() == EmptyTag;
      assert b[s].Empty?;
    }
  }

  // ---------------------------------------------------------------------------
  // The abstraction

  lemma ContentsAt<K, V>(b: seq<Bucket<K, V>>, s: nat)
    requires Unique(b) && s < |b| && b[s].Occupied?
    ensures b[s].key in Contents(b) && Contents(b)[b[s].key] == b[s].value
  {
  }

  /** A stored key sits in exactly one bucket, which holds its value. */
  lemma ContentsHas<K, V>(b: seq<Bucket<K, V>>, k: K) returns (s: nat)
    requires Unique(b) && k in Contents(b)
    ensures s < |b| && b[s] == Occupied(k, Contents(b)[k])
  {
    s :| 0 <= s < |b| && b[s].Occupied? && b[s].key == k;
  }

  lemma ContentsFill<K, V>(n: nat)
    ensures Unique(Fill<K, V>(n)) && Contents(Fill<K, V>(n)) == map[]
  {
  }

  /** Writing a new key into a free bucket adds exactly that key. */
  lemma ContentsPlace<K, V>(b: seq<Bucket<K, V>>, s: nat, k: K, v: V)
    requires Unique(b) && s < |b| && !b[s].Occupied? && k !in Contents(b)
    ensures Unique(b[s := Occupied(k, v)])
    ensures Contents(b[s := Occupied(k, v)]) == Contents(b)[k := v]
  {
    var b' := b[s := Occupied(k, v)];
    forall i | 0 <= i < |b| && i != s && b[i].Occupied?
      ensures b[i].key != k
    {
      ContentsAt(b, i);
    }
    assert Unique(b');
    var c, c' := Contents(b), Contents(b');
    forall x | x in c'
      ensures x in c[k := v] && c'[x] == c[k := v][x]
    {
      var i :| 0 <= i < |b'| && b'[i].Occupied? && b'[i].key == x;
      if i != s {
        ContentsAt(b, i);
      }
    }
    forall x | x in c[k := v]
      ensures x in c'
    {
      if x == k {
        ContentsAt(b', s);
      } else {
        var i := ContentsHas(b, x);
        assert b'[i] == b[i];
      }
    }
  }

  /** Turning an occupied bucket into a tombstone removes exactly its key. */
  lemma ContentsRemove<K, V>(b: seq<Bucket<K, V>>, s: nat)
    requires Unique(b) && s < |b| && b[s].Occupied?
    ensures Unique(b[s := Tombstone])
    ensures Contents(b[s := Tombstone]) == Contents(b) - {b[s].key}
  {
    var b' := b[s := Tombstone];
    var c, c' := Contents(b), Contents(b');
    forall x | x in c'
      ensures x in c && x != b[s].key && c'[x] == c[x]
    {
      var i :| 0 <= i < |b'| && b'[i].Occupied? && b'[i].key == x;
      ContentsAt(b, i);
    }
    forall x | x in c && x != b[s].key
      ensures x in c'
    {
      var i := ContentsHas(b, x);
      assert b'[i] == b[i];
    }
  }

  lemma UniquePrefix<K, V>(b: seq<Bucket<K, V>>, i: nat)
    requires Unique(b) && i <= |b|
    ensures Unique(b[..i])
  {
  }

  /** Extending a prefix by one bucket adds that bucket's entry, which was not there yet. */
  lemma ContentsPrefixStep<K, V>(b: seq<Bucket<K, V>>, i: nat)
    requires Unique(b) && i < |b|
    ensures Unique(b[..i]) && Unique(b[..i + 1])
    ensures b[i].Occupied? ==> b[i].key !in Contents(b[..i])
    ensures Contents(b[..i + 1])
         == if b[i].Occupied? then Contents(b[..i])[b[i].key := b[i].value] else Contents(b[..i])
  {
    var p, q := b[..i], b[..i + 1];
    UniquePrefix(b, i);
    UniquePrefix(b, i + 1);
    if b[i].Occupied? && b[i].key in Contents(p) {
      var j := ContentsHas(p, b[i].key);
      assert false;
    }
    var c, c' := Contents(p), Contents(q);
    var e := if b[i].Occupied? then c[b[i].key := b[i].value] else c;
    forall x | x in c'
      ensures x in e && c'[x] == e[x]
    {
      var j :| 0 <= j < |q| && q[j].Occupied? && q[j].key == x;
      if j < i {
        assert p[j] == q[j];
        ContentsAt(p, j);
      }
    }
    forall x | x in e
      ensures x in c'
    {
      if b[i].Occupied? && x == b[i].key {
        ContentsAt(q, i);
      } else {
        var j := ContentsHas(p, x);
        assert q[j] == p[j];
        ContentsAt(q, j);
      }
    }
  }

  /** The table holds exactly as many entries as it has occupied buckets. */
  lemma {:induction false} ContentsSize<K, V>(b: seq<Bucket<K, V>>)
    requires Unique(b)
    ensures |Contents(b)| == TagCount(b, OccupiedTag)
    decreases |b|
  {
    if |b| > 0 {
      var n := |b| - 1;
      ContentsPrefixStep(b, n);
      assert b[..n + 1] == b;
      ContentsSize(b[..n]);
    }
  }

  // ---------------------------------------------------------------------------
  // Probe chains

  /** None of the first i probes for hash h meets an empty bucket. */
  ghost predicate ChainClear<K, V>(b: seq<Bucket<K, V>>, h: Hash32, i: nat)
    requires |b| > 0
  {
    forall j: nat :: j < i ==> !b[Slot(h, j, |b|)].Empty?
  }

  /** All of the first i probes for hash h meet occupied buckets. */
  ghost predicate ChainFull<K, V>(b: seq<Bucket<K, V>>, h: Hash32, i: nat)
    requires |b| > 0
  {
    forall j: nat :: j < i ==> b[Slot(h, j, |b|)].Occupied?
  }

  /** Bucket s lies on the probe chain of h before any empty bucket. */
  ghost predicate ReachableAt<K, V>(b: seq<Bucket<K, V>>, h: Hash32, s: nat)
    requires |b| > 0
  {
    exists i: nat :: i < |b| && Slot(h, i, |b|) == s && ChainClear(b, h, i)
  }

  /** Every stored key can be found by probing from its hash. */
  ghost predicate Reachable<K, V>(b: seq<Bucket<K, V>>, hash: K -> Hash32) {
    forall s :: 0 <= s < |b| && b[s].Occupied? ==> ReachableAt(b, hash(b[s].key), s)
  }

  /**
    Bucket s is the first non-occupied bucket on the probe chain of h: the
    first tombstone met, or, when the chain reaches an empty bucket before
    any tombstone, that empty bucket.
  */
  ghost predicate FirstFree<K, V>(b: seq<Bucket<K, V>>, h: Hash32, s: nat)
    requires |b| > 0
  {
    exists i: nat :: i < |b| && Slot(h, i, |b|) == s && !b[s].Occupied? && ChainFull(b, h, i)
  }

  /** The structural invariant of a bucket array, independent of the counters. */
  ghost predicate Shaped<K, V>(b: seq<Bucket<K, V>>, hash: K -> Hash32) {
    ValidCapacity(|b|) && Unique(b) && Reachable(b, hash)
  }

  /** Replacing buckets by non-empty ones keeps every chain clear of empty buckets. */
  lemma ChainClearKept<K, V>(b: seq<Bucket<K, V>>, b': seq<Bucket<K, V>>, h: Hash32, i: nat)
    requires |b| == |b'| > 0
    requires forall s :: 0 <= s < |b| && b'[s].Empty? ==> b[s].Empty?
    requires ChainClear(b, h, i)
    ensures ChainClear(b', h, i)
  {
  }

  lemma ReachableAtKept<K, V>(b: seq<Bucket<K, V>>, b': seq<Bucket<K, V>>, h: Hash32, s: nat)
    requires |b| == |b'| > 0
    requires forall x :: 0 <= x < |b| && b'[x].Empty? ==> b[x].Empty?
    requires ReachableAt(b, h, s)
    ensures ReachableAt(b', h, s)
  {
    var i: nat :| i < |b| && Slot(h, i, |b|) == s && ChainClear(b, h, i);
    ChainClearKept(b, b', h, i);
  }

  /** Erasing keeps every remaining key reachable: a tombstone does not end a probe. */
  lemma ShapedRemove<K, V>(b: seq<Bucket<K, V>>, hash: K -> Hash32, s: nat)
    requires Shaped(b, hash) && s < |b| && b[s].Occupied?
    ensures Shaped(b[s := Tombstone], hash)
    ensures Contents(b[s := Tombstone]) == Contents(b) - {b[s].key}
  {
    var b' := b[s := Tombstone];
    ContentsRemove(b, s);
    forall x | 0 <= x < |b'| && b'[x].Occupied?
      ensures ReachableAt(b', hash(b'[x].key), x)
    {
      ReachableAtKept(b, b', hash(b[x].key), x);
    }
  }

  /** Storing a new key in the first free bucket of its chain keeps every key reachable. */
  lemma ShapedPlace<K, V>(b: seq<Bucket<K, V>>, hash: K -> Hash32, s: nat, k: K, v: V)
    requires Shaped(b, hash) && |b| > 0 && k !in Contents(b)
    requires FirstFree(b, hash(k), s)
    ensures s < |b| && !b[s].Occupied?
    ensures Shaped(b[s := Occupied(k, v)], hash)
    ensures Contents(b[s := Occupied(k, v)]) == Contents(b)[k := v]
  {
    var h := hash(k);
    var i: nat :| i < |b| && Slot(h, i, |b|) == s && !b[s].Occupied? && ChainFull(b, h, i);
    var b' := b[s := Occupied(k, v)];
    ContentsPlace(b, s, k, v);
    forall x | 0 <= x < |b'| && b'[x].Occupied?
      ensures ReachableAt(b', hash(b'[x].key), x)
    {
      if x == s {
        forall j: nat | j < i
          ensures !b'[Slot(h, j, |b|)].Empty?
        {
          assert b[Slot(h, j, |b|)].Occupied?;
        }
        assert ChainClear(b', h, i);
      } else {
        ReachableAtKept(b, b', hash(b[x].key), x);
      }
    }
  }
}

=== FILE: densemap.dfy ===
/**
  The public operations of `VmkitDenseMap`, each a function from the table
  before the call to the table after it (and the call's result).  The hash
  function of the key traits is the parameter `hash`; its default-constructed
  value, where the C++ uses `ValueT()`, is the parameter `default`.
*/
module VmkitDenseMap {
  import opened Probing
  import opened Buckets
  import opened BucketLookup
  import opened Iterators
  import opened Table
  import opened Growth

  /** `init(InitBuckets)`: `InitBuckets` empty buckets and both counters zero. */
  function Init<K, V>(initBuckets: nat): (m: DenseMap<K, V>)
    requires ValidCapacity(initBuckets)
    ensures |m.buckets| == initBuckets && m.numEntries == 0 && m.numTombstones == 0
    ensures Unique(m.buckets) && Contents(m.buckets) == map[]
    ensures initBuckets > 0 ==> HasEmpty(m.buckets)
  {
    ContentsFill<K, V>(initBuckets);
    var b := Fill<K, V>(initBuckets);
    assert initBuckets > 0 ==> b[0].Empty?;
    DenseMap(b, 0, 0)
  }

  /** A freshly initialised table is valid for every hash function and holds nothing. */
  lemma InitSpec<K, V>(initBuckets: nat, hash: K -> Hash32)
    requires ValidCapacity(initBuckets)
    ensures Valid(Init<K, V>(initBuckets), hash)
    ensures Contents(Init<K, V>(initBuckets).buckets) == map[]
  {
    FreshValid<K, V>(initBuckets, hash);
  }

  /** `size()`. */
  function Size<K, V>(m: DenseMap<K, V>): nat {
    m.numEntries
  }

  /** `empty()`. */
  function IsEmpty<K, V>(m: DenseMap<K, V>): bool {
    m.numEntries == 0
  }

  /** `size()` is the number of stored keys and `empty()` holds exactly when none is stored. */
  lemma SizeSpec<K, V>(m: DenseMap<K, V>, hash: K -> Hash32)
    requires Valid(m, hash)
    ensures Size(m) == |Contents(m.buckets)|
    ensures IsEmpty(m) <==> Contents(m.buckets) == map[]
  {
    ContentsSize(m.buckets);
    if Contents(m.buckets) != map[] {
      var k :| k in Contents(m.buckets);
      assert k in Contents(m.buckets).Keys;
    }
  }

  /** `count(Val)`: whether the key is stored. */
  function Count<K(==), V>(m: DenseMap<K, V>, hash: K -> Hash32, key: K): (r: bool)
    requires Valid(m, hash)
    ensures r <==> key in Contents(m.buckets)
  {
    ProbeSpec(m.buckets, hash, key);
    Lookup(m.buckets, hash, key).Found?
  }

  /** `end()`: the position one past the last bucket. */
  function End<K, V>(m: DenseMap<K, V>): (it: Iterator)
    ensures it.ptr == |m.buckets| && it.end == |m.buckets|
    ensures Walk(m.buckets, it.ptr) == []
  {
    Iterator(|m.buckets|, |m.buckets|)
  }

  /** `begin()`: `end()` for an empty table, otherwise the first occupied bucket. */
  function Begin<K, V>(m: DenseMap<K, V>): (it: Iterator)
    ensures it.end == |m.buckets| && it.ptr <= |m.buckets|
    ensures it.ptr < |m.buckets| ==> m.buckets[it.ptr].Occupied?
  {
    if IsEmpty(m) then End(m) else At(m.buckets, 0)
  }

  /**
    The shortcut `begin()` takes for an empty table agrees with skipping from
    bucket 0: it rests on the first occupied bucket, and equals `end()`
    exactly when the table holds nothing.
  */
  lemma BeginSpec<K, V>(m: DenseMap<K, V>, hash: K -> Hash32)
    requires Valid(m, hash)
    ensures Begin(m).ptr == Advance(m.buckets, 0)
    ensures Begin(m).ptr == End(m).ptr <==> Contents(m.buckets) == map[]
  {
    SizeSpec(m, hash);
    var q := Advance(m.buckets, 0);
    if q < |m.buckets| {
      EntriesPositive(m, hash, q);
      ContentsAt(m.buckets, q);
    }
  }

  /** `find(Val)`: an iterator at the key's bucket, or `end()`. */
  function Find<K(==), V>(m: DenseMap<K, V>, hash: K -> Hash32, key: K): (it: Iterator)
    requires Valid(m, hash)
    ensures it.end == |m.buckets|
    ensures key in Contents(m.buckets) ==> it.ptr < |m.buckets| && m.buckets[it.ptr] == Occupied(key, Contents(m.buckets)[key])
    ensures key !in Contents(m.buckets) ==> it == End(m)
  {
    ProbeSpec(m.buckets, hash, key);
    var r := Lookup(m.buckets, hash, key);
    if r.Found? then At(m.buckets, r.slot) else End(m)
  }

  /** `lookup(Val)`: the stored value, or the default value when the key is absent. */
  function LookupOr<K(==), V>(m: DenseMap<K, V>, hash: K -> Hash32, key: K, default: V): (v: V)
    requires Valid(m, hash)
    ensures key in Contents(m.buckets) ==> v == Contents(m.buckets)[key]
    ensures key !in Contents(m.buckets) ==> v == default
  {
    ProbeSpec(m.buckets, hash, key);
    var r := Lookup(m.buckets, hash, key);
    if r.Found? then m.buckets[r.slot].value else default
  }

  /** Overwrite an occupied bucket with a tombstone: `--NumEntries; ++NumTombstones`. */
  function Tombstoned<K, V>(m: DenseMap<K, V>, s: nat): (r: DenseMap<K, V>)
    requires s < |m.buckets| && m.buckets[s].Occupied? && m.numEntries > 0
  {
    DenseMap(m.buckets[s := Tombstone], m.numEntries - 1, m.numTombstones + 1)
  }

  /** Tombstoning a bucket removes exactly its key and keeps the table valid. */
  lemma TombstonedSpec<K, V>(m: DenseMap<K, V>, hash: K -> Hash32, s: nat)
    requires Valid(m, hash) && s < |m.buckets| && m.buckets[s].Occupied?
    ensures m.numEntries > 0
    ensures Valid(Tombstoned(m, s), hash)
    ensures Contents(Tombstoned(m, s).buckets) == Contents(m.buckets) - {m.buckets[s].key}
  {
    EntriesPositive(m, hash, s);
    ShapedRemove(m.buckets, hash, s);
    CountUpdate(m.buckets, s, Tombstone, OccupiedTag);
    CountUpdate(m.buckets, s, Tombstone, TombstoneTag);
    RoomLeft(m, hash);
    ValidFromRoom(Tombstoned(m, s), hash);
  }

  /**
    `erase(Val)`: false and no change when the key is absent; otherwise its
    bucket becomes a tombstone, and the key is no longer found.
  */
  function Erase<K(==), V>(m: DenseMap<K, V>, hash: K -> Hash32, key: K): (r: (DenseMap<K, V>, bool))
    requires Valid(m, hash)
    ensures Valid(r.0, hash)
    ensures r.1 <==> key in Contents(m.buckets)
    ensures Contents(r.0.buckets) == Contents(m.buckets) - {key}
    ensures !r.1 ==> r.0 == m
    ensures r.1 ==> |r.0.buckets| == |m.buckets| && r.0.numEntries == m.numEntries - 1 && r.0.numTombstones == m.numTombstones + 1
    ensures !Count(r.0, hash, key)
    ensures r.1 ==> r.0.buckets == m.buckets[Find(m, hash, key).ptr := Tombstone]
  {
    ProbeSpec(m.buckets, hash, key);
    var l := Lookup(m.buckets, hash, key);
    if !l.Found? then
      (m, false)
    else
      TombstonedSpec(m, hash, l.slot);
      (Tombstoned(m, l.slot), true)
  }

  /** `erase(iterator)`: the entry the iterator points at is removed. */
  function EraseAt<K, V>(m: DenseMap<K, V>, hash: K -> Hash32, it: Iterator): (r: DenseMap<K, V>)
    requires Valid(m, hash) && it.ptr < |m.buckets| && m.buckets[it.ptr].Occupied?
    ensures Valid(r, hash)
    ensures Contents(r.buckets) == Contents(m.buckets) - {m.buckets[it.ptr].key}
    ensures |r.buckets| == |m.buckets| && r.numEntries == m.numEntries - 1 && r.numTombstones == m.numTombstones + 1
    ensures r.buckets == m.buckets[it.ptr := Tombstone]
  {
    TombstonedSpec(m, hash, it.ptr);
    Tombstoned(m, it.ptr)
  }

  /** `grow` followed by a fresh `LookupBucketFor` of the key being inserted. */
  function GrowAndLook<K(==), V>(m: DenseMap<K, V>, hash: K -> Hash32, key: K, atLeast: nat): (r: (DenseMap<K, V>, LookupResult))
    requires Valid(m, hash) && atLeast <= MaxBuckets && key !in Contents(m.buckets)
    ensures Valid(r.0, hash) && Contents(r.0.buckets) == Contents(m.buckets)
    ensures |r.0.buckets| == GrowSize(|m.buckets|, atLeast)
    ensures r.0.numEntries == m.numEntries && r.0.numTombstones == 0
    ensures r.1 == Lookup(r.0.buckets, hash, key) && r.1.Vacant?
  {
    var g := Grow(m, hash, atLeast);
    ProbeSpec(g.buckets, hash, key);
    (g, Lookup(g.buckets, hash, key))
  }

  /**
    The first growth check of `InsertIntoBucket`, made with `NumEntries`
    already counting the new entry: grow to twice the size when the load
    reaches three quarters.  The products are unsigned 32-bit; they cannot
    wrap for tables of at most 2^30 buckets.
  */
  function LoadCheck<K(==), V>(m: DenseMap<K, V>, hash: K -> Hash32, key: K, l: LookupResult): (r: (DenseMap<K, V>, LookupResult))
    requires Valid(m, hash) && |m.buckets| < MaxBuckets
    requires key !in Contents(m.buckets) && l == Lookup(m.buckets, hash, key)
    ensures Valid(r.0, hash) && Contents(r.0.buckets) == Contents(m.buckets)
    ensures r.0.numEntries == m.numEntries && |m.buckets| <= |r.0.buckets|
    ensures r.1 == Lookup(r.0.buckets, hash, key) && r.1.Vacant?
    ensures 4 * (m.numEntries + 1) < 3 * |r.0.buckets|
    ensures m.numEntries + 1 + r.0.numTombstones <= |r.0.buckets|
    ensures 2 * |m.buckets| <= MaxBuckets
    ensures 4 * (m.numEntries + 1) >= 3 * |m.buckets| ==> |r.0.buckets| == GrowSize(|m.buckets|, 2 * |m.buckets|) && r.0.numTombstones == 0
    ensures 4 * (m.numEntries + 1) < 3 * |m.buckets| ==> r == (m, l)
  {
    InsertableSize(m, hash);
    ProbeSpec(m.buckets, hash, key);
    RoomLeft(m, hash);
    var e := m.numEntries + 1;
    var n := |m.buckets|;
    U32Exact(e * 4);
    U32Exact(n * 3);
    U32Exact(n * 2);
    if U32(e * 4) >= U32(n * 3) then GrowAndLook(m, hash, key, U32(n * 2)) else (m, l)
  }

  /**
    The second growth check of `InsertIntoBucket`: rehash at the same size
    (which drops every tombstone) when fewer than an eighth of the buckets
    would remain empty, as the C++ tests, or when none would.  The second
    condition is the correction; from 8 buckets up it is implied by the
    first.
  */
  function TombstoneCheck<K(==), V>(m: DenseMap<K, V>, hash: K -> Hash32, key: K, l: LookupResult, e: nat): (r: (DenseMap<K, V>, LookupResult))
    requires Valid(m, hash) && key !in Contents(m.buckets) && l == Lookup(m.buckets, hash, key) && l.Vacant?
    requires e == m.numEntries + 1 && 4 * e < 3 * |m.buckets| && e + m.numTombstones <= |m.buckets|
    ensures Valid(r.0, hash) && Contents(r.0.buckets) == Contents(m.buckets)
    ensures r.0.numEntries == m.numEntries && |m.buckets| <= |r.0.buckets|
    ensures r.1 == Lookup(r.0.buckets, hash, key) && r.1.Vacant?
    ensures 4 * e < 3 * |r.0.buckets|
    ensures e + r.0.numTombstones < |r.0.buckets|
    ensures var n := |m.buckets|; var live := e + m.numTombstones;
      n - live < n / 8 || live == n ==> |r.0.buckets| == GrowSize(n, n) && r.0.numTombstones == 0
    ensures var n := |m.buckets|; var live := e + m.numTombstones;
      n - live >= n / 8 && live < n ==> r == (m, l)
  {
    var n := |m.buckets|;
    U32Exact(n - (e + m.numTombstones));
    if U32(n - (e + m.numTombstones)) < n / 8 || e + m.numTombstones == n then GrowAndLook(m, hash, key, n) else (m, l)
  }

  /**
    After the load check has doubled the table, the second check cannot
    fire: the new entry leaves at least an eighth of the buckets empty.
  */
  lemma NoRehashAfterDoubling(n: nat, grown: nat, e: nat)
    requires grown >= 64 && grown >= 2 * n
    requires 4 * (e - 1) < 3 * n || (n == 0 && e == 1)
    ensures grown - e >= grown / 8 && e < grown
  {
  }

  /**
    The table an insertion starts from needs no reallocation: counting the
    new entry it stays below three quarters load and keeps at least an
    eighth of its buckets, and at least one, empty.
  */
  predicate Untouched<K, V>(m: DenseMap<K, V>) {
    var n, e := |m.buckets|, m.numEntries + 1;
    4 * e < 3 * n && n - (e + m.numTombstones) >= n / 8 && e + m.numTombstones < n
  }

  /**
    The growth policy of `InsertIntoBucket`, relating the table before the
    checks to the table after them: reaching three quarters load doubles the
    size (at least 64 buckets); otherwise too few empty buckets rehash at the
    same size (at least 64); either way the tombstones are gone.
  */
  ghost predicate GrowthPolicy<K, V>(m: DenseMap<K, V>, r: DenseMap<K, V>)
    requires ValidCapacity(|m.buckets|) && 2 * |m.buckets| <= MaxBuckets
  {
    var n, e := |m.buckets|, m.numEntries + 1;
    && (4 * e >= 3 * n ==> |r.buckets| == GrowSize(n, 2 * n) && r.numTombstones == 0)
    && (4 * e < 3 * n && !Untouched(m) ==> |r.buckets| == GrowSize(n, n) && r.numTombstones == 0)
  }

  /**
    Both growth checks of `InsertIntoBucket`: afterwards the bucket the
    lookup hands back can take the new entry without using up the last empty
    bucket or passing three quarters load.
  */
  function MakeRoom<K(==), V>(m: DenseMap<K, V>, hash: K -> Hash32, key: K, l: LookupResult): (r: (DenseMap<K, V>, LookupResult))
    requires Valid(m, hash) && |m.buckets| < MaxBuckets
    requires key !in Contents(m.buckets) && l == Lookup(m.buckets, hash, key)
    ensures Valid(r.0, hash) && Contents(r.0.buckets) == Contents(m.buckets)
    ensures r.0.numEntries == m.numEntries && |m.buckets| <= |r.0.buckets|
    ensures r.1 == Lookup(r.0.buckets, hash, key) && r.1.Vacant?
    ensures m.numEntries + 1 + r.0.numTombstones < |r.0.buckets|
    ensures 4 * (m.numEntries + 1) < 3 * |r.0.buckets|
    ensures 2 * |m.buckets| <= MaxBuckets && GrowthPolicy(m, r.0)
    ensures Untouched(m) ==> r == (m, l)
  {
    var r1 := LoadCheck(m, hash, key, l);
    var e := m.numEntries + 1;
    RoomLeft(m, hash);
    assert 4 * e >= 3 * |m.buckets| ==> |r1.0.buckets| - e >= |r1.0.buckets| / 8 && e < |r1.0.buckets| by {
      if 4 * e >= 3 * |m.buckets| {
        NoRehashAfterDoubling(|m.buckets|, |r1.0.buckets|, e);
      }
    }
    TombstoneCheck(r1.0, hash, key, r1.1, e)
  }

  /** The write of `InsertIntoBucket`: a reused tombstone is no longer counted. */
  function Commit<K(==), V>(m: DenseMap<K, V>, hash: K -> Hash32, key: K, value: V, l: LookupResult): (r: (DenseMap<K, V>, nat))
    requires Valid(m, hash) && key !in Contents(m.buckets)
    requires l == Lookup(m.buckets, hash, key) && l.Vacant?
    ensures r.1 < |r.0.buckets| == |m.buckets| && r.0.buckets[r.1] == Occupied(key, value)
    ensures Shaped(r.0.buckets, hash) && Contents(r.0.buckets) == Contents(m.buckets)[key := value]
    ensures r.0.numEntries == TagCount(r.0.buckets, OccupiedTag) == m.numEntries + 1
    ensures r.0.numTombstones == TagCount(r.0.buckets, TombstoneTag) <= m.numTombstones
    ensures r.1 == l.slot && r.0.buckets == m.buckets[l.slot := Occupied(key, value)]
    ensures r.0.numTombstones == m.numTombstones - (if m.buckets[l.slot].Tombstone? then 1 else 0)
  {
    ProbeSpec(m.buckets, hash, key);
    ShapedPlace(m.buckets, hash, l.slot, key, value);
    CountUpdate(m.buckets, l.slot, Occupied(key, value), OccupiedTag);
    CountUpdate(m.buckets, l.slot, Occupied(key, value), TombstoneTag);
    var t := if !m.buckets[l.slot].Empty? then m.numTombstones - 1 else m.numTombstones;
    (DenseMap(m.buckets[l.slot := Occupied(key, value)], m.numEntries + 1, t), l.slot)
  }

  /**
    `InsertIntoBucket(Key, Value, TheBucket)` for a key `LookupBucketFor`
    did not find: the table, possibly grown, stores the pair and stays valid.
  */
  function InsertIntoBucket<K(==), V>(m: DenseMap<K, V>, hash: K -> Hash32, key: K, value: V, l: LookupResult): (r: (DenseMap<K, V>, nat))
    requires Valid(m, hash) && |m.buckets| < MaxBuckets
    requires key !in Contents(m.buckets) && l == Lookup(m.buckets, hash, key)
    ensures Valid(r.0, hash)
    ensures Contents(r.0.buckets) == Contents(m.buckets)[key := value]
    ensures r.0.numEntries == m.numEntries + 1 && |m.buckets| <= |r.0.buckets|
    ensures r.1 < |r.0.buckets| && r.0.buckets[r.1] == Occupied(key, value)
    ensures r.0.numEntries + r.0.numTombstones < |r.0.buckets|
    ensures 2 * |m.buckets| <= MaxBuckets && GrowthPolicy(m, r.0)
    ensures Untouched(m) ==> l.Vacant? && r.1 == l.slot && r.0.buckets == m.buckets[l.slot := Occupied(key, value)]
    ensures Untouched(m) ==> r.0.numTombstones == m.numTombstones - (if m.buckets[l.slot].Tombstone? then 1 else 0)
  {
    var (m2, l2) := MakeRoom(m, hash, key, l);
    var r := Commit(m2, hash, key, value, l2);
    ValidFromRoom(r.0, hash);
    r
  }

  /**
    `insert(KV)`: an existing key leaves the table unchanged and reports
    false with an iterator at the stored entry; a new key is stored,
    counted, and reported true with an iterator at its bucket.
  */
  function Insert<K(==), V>(m: DenseMap<K, V>, hash: K -> Hash32, key: K, value: V): (r: (DenseMap<K, V>, Iterator, bool))
    requires Valid(m, hash) && |m.buckets| < MaxBuckets
    ensures Valid(r.0, hash)
    ensures r.2 <==> key !in Contents(m.buckets)
    ensures !r.2 ==> r.0 == m
    ensures r.2 ==> Contents(r.0.buckets) == Contents(m.buckets)[key := value]
    ensures r.2 ==> r.0.numEntries == m.numEntries + 1
    ensures r.1.end == |r.0.buckets| && r.1.ptr < |r.0.buckets|
    ensures key in Contents(r.0.buckets) && r.0.buckets[r.1.ptr] == Occupied(key, Contents(r.0.buckets)[key])
  {
    ProbeSpec(m.buckets, hash, key);
    var l := Lookup(m.buckets, hash, key);
    if l.Found? then
      (m, At(m.buckets, l.slot), false)
    else
      var (m', s) := InsertIntoBucket(m, hash, key, value, l);
      ContentsAt(m'.buckets, s);
      (m', At(m'.buckets, s), true)
  }

  /**
    `FindAndConstruct(Key)`: the bucket of the key, after inserting the
    default value when the key was absent.
  */
  function FindAndConstruct<K(==), V>(m: DenseMap<K, V>, hash: K -> Hash32, key: K, default: V): (r: (DenseMap<K, V>, nat))
    requires Valid(m, hash) && |m.buckets| < MaxBuckets
    ensures Valid(r.0, hash)
    ensures key in Contents(m.buckets) ==> r.0 == m
    ensures key !in Contents(m.buckets) ==> Contents(r.0.buckets) == Contents(m.buckets)[key := default]
    ensures key !in Contents(m.buckets) ==> r.0.numEntries == m.numEntries + 1
    ensures key in Contents(r.0.buckets)
    ensures r.1 < |r.0.buckets| && r.0.buckets[r.1] == Occupied(key, Contents(r.0.buckets)[key])
  {
    ProbeSpec(m.buckets, hash, key);
    var l := Lookup(m.buckets, hash, key);
    if l.Found? then
      (m, l.slot)
    else
      InsertIntoBucket(m, hash, key, default, l)
  }

  /** `operator[](Key)` read as a value: the stored value, or the default value, now stored. */
  function Index<K(==), V>(m: DenseMap<K, V>, hash: K -> Hash32, key: K, default: V): (r: (DenseMap<K, V>, V))
    requires Valid(m, hash) && |m.buckets| < MaxBuckets
    ensures Valid(r.0, hash)
    ensures r.1 == if key in Contents(m.buckets) then Contents(m.buckets)[key] else default
    ensures Contents(r.0.buckets) == Contents(m.buckets)[key := r.1]
    ensures key in Contents(m.buckets) ==> r.0 == m
  {
    var (m', s) := FindAndConstruct(m, hash, key, default);
    (m', m'.buckets[s].value)
  }

  /** `resize(Size)`: `Size` is a `size_t` the call to `grow` truncates to 32 bits. */
  function Resize<K(==), V>(m: DenseMap<K, V>, hash: K -> Hash32, size: nat): (r: DenseMap<K, V>)
    requires Valid(m, hash) && (size > |m.buckets| ==> U32(size) <= MaxBuckets)
    ensures Valid(r, hash) && Contents(r.buckets) == Contents(m.buckets)
    ensures |m.buckets| <= |r.buckets| && r.numEntries == m.numEntries
    ensures size <= |m.buckets| ==> r == m
    ensures size > |m.buckets| ==> |r.buckets| == GrowSize(|m.buckets|, U32(size))
  {
    if size > |m.buckets| then Grow(m, hash, U32(size)) else m
  }

  /**
    `shrink_and_clear`, called by `clear` for a large, mostly empty table:
    an all-empty array of `ShrinkSize(NumEntries)` buckets, strictly smaller
    than the old one.
  */
  function ShrinkAndClear<K, V>(m: DenseMap<K, V>): (r: DenseMap<K, V>)
    requires ValidCapacity(|m.buckets|)
    requires m.numEntries * 4 < |m.buckets| && |m.buckets| > 64
    ensures |r.buckets| == ShrinkSize(m.numEntries) && |r.buckets| < |m.buckets|
    ensures r.numEntries == 0 && r.numTombstones == 0
    ensures forall s :: 0 <= s < |r.buckets| ==> r.buckets[s].Empty?
  {
    Init(ShrinkSize(m.numEntries))
  }

  /**
    The loop of `clear()` that keeps the array: every non-empty bucket is
    made empty, and a live entry found there is uncounted, so the count
    reaches zero exactly when the loop has met `NumEntries` live entries.
  */
  method EmptyBuckets<K, V>(m: DenseMap<K, V>, ghost hash: K -> Hash32) returns (r: DenseMap<K, V>)
    requires Valid(m, hash)
    ensures r == DenseMap(Fill(|m.buckets|), 0, 0)
  {
    var b := m.buckets;
    var numEntries := m.numEntries;
    var i := 0;
    while i < |b|
      invariant i <= |b| == |m.buckets|
      invariant forall s :: 0 <= s < i ==> b[s].Empty?
      invariant b[i..] == m.buckets[i..]
      invariant numEntries + TagCount(m.buckets[..i], OccupiedTag) == m.numEntries
    {
      assert b[i] == m.buckets[i] by { assert b[i..][0] == m.buckets[i..][0]; }
      CountPrefixStep(m.buckets, i, OccupiedTag);
      if !b[i].Empty? {
        if !b[i].Tombstone? {
          numEntries := numEntries - 1;
        }
        b := b[i := Empty];
      }
      assert b[i + 1..] == m.buckets[i + 1..] by { assert b[i + 1..] == b[i..][1..]; }
      i := i + 1;
    }
    assert m.buckets[..|b|] == m.buckets;
    assert b == Fill(|b|);
    r := DenseMap(b, numEntries, 0);
  }

  /**
    `clear()`: every bucket becomes empty.  A table with nothing in it is
    returned as is, a large table that is less than a quarter full shrinks,
    and any other keeps its size.
  */
  method Clear<K, V>(m: DenseMap<K, V>, ghost hash: K -> Hash32) returns (r: DenseMap<K, V>)
    requires Valid(m, hash) && m.numEntries * 4 < Word
    ensures Valid(r, hash) && Contents(r.buckets) == map[]
    ensures r.numEntries == 0 && r.numTombstones == 0
    ensures forall s :: 0 <= s < |r.buckets| ==> r.buckets[s].Empty?
    ensures m.numEntries == 0 && m.numTombstones == 0 ==> r == m
    ensures |r.buckets| < |m.buckets| <==>
      (m.numEntries > 0 || m.numTombstones > 0) && m.numEntries * 4 < |m.buckets| && |m.buckets| > 64
    ensures |r.buckets| < |m.buckets| ==> |r.buckets| == ShrinkSize(m.numEntries)
    ensures |r.buckets| >= |m.buckets| ==> |r.buckets| == |m.buckets|
  {
    if m.numEntries == 0 && m.numTombstones == 0 {
      r := m;
      SizeSpec(m, hash);
      assert forall s :: 0 <= s < |r.buckets| ==> r.buckets[s].Empty? by {
        forall s | 0 <= s < |r.buckets|
          ensures r.buckets[s].Empty?
        {
          if r.buckets[s].Occupied? {
            EntriesPositive(m, hash, s);
          }
          if r.buckets[s].Tombstone? {
            TombstonesPositive(m, hash, s);
          }
        }
      }
      return;
    }
    U32Exact(m.numEntries * 4);
    if U32(m.numEntries * 4) < |m.buckets| && |m.buckets| > 64 {
      r := ShrinkAndClear(m);
      FreshValid<K, V>(|r.buckets|, hash);
      return;
    }
    r := EmptyBuckets(m, hash);
    FreshValid<K, V>(|r.buckets|, hash);
  }

  /** Position by position, the walk from bucket 0 reads off the stored entries. */
  lemma WalkEntries<K, V>(m: DenseMap<K, V>, hash: K -> Hash32, slots: seq<nat>, pairs: seq<(K, V)>)
    requires Valid(m, hash) && slots == Walk(m.buckets, 0) && |pairs| == |slots|
    requires forall i :: 0 <= i < |slots| ==> slots[i] < |m.buckets| && m.buckets[slots[i]] == Occupied(pairs[i].0, pairs[i].1)
    ensures |slots| == m.numEntries
    ensures forall s :: s in slots <==> 0 <= s < |m.buckets| && m.buckets[s].Occupied?
    ensures forall i, j :: 0 <= i < j < |slots| ==> slots[i] < slots[j]
    ensures forall i :: 0 <= i < |pairs| ==> pairs[i].0 in Contents(m.buckets) && Contents(m.buckets)[pairs[i].0] == pairs[i].1
    ensures forall k :: k in Contents(m.buckets) ==> exists i :: 0 <= i < |pairs| && pairs[i].0 == k
  {
    var b := m.buckets;
    WalkSpec(b, 0);
    assert b[..0] == [];
    forall i | 0 <= i < |pairs|
      ensures pairs[i].0 in Contents(b) && Contents(b)[pairs[i].0] == pairs[i].1
    {
      ContentsAt(b, slots[i]);
    }
    forall k | k in Contents(b)
      ensures exists i :: 0 <= i < |pairs| && pairs[i].0 == k
    {
      var s := ContentsHas(b, k);
      assert s in slots;
      var i :| 0 <= i < |slots| && slots[i] == s;
      assert pairs[i].0 == k;
    }
  }

  /** Dereferencing the iterator at each visited position: the pair stored there. */
  function Read<K, V>(b: seq<Bucket<K, V>>, slots: seq<nat>): (pairs: seq<(K, V)>)
    requires forall i :: 0 <= i < |slots| ==> slots[i] < |b| && b[slots[i]].Occupied?
    ensures |pairs| == |slots|
    ensures forall i :: 0 <= i < |slots| ==> b[slots[i]] == Occupied(pairs[i].0, pairs[i].1)
  {
    seq(|slots|, i requires 0 <= i < |slots| => (b[slots[i]].key, b[slots[i]].value))
  }

  /** One turn of the iteration loop: the visited position moves from the walk to the visited list. */
  lemma WalkStep<K, V>(b: seq<Bucket<K, V>>, slots: seq<nat>, p: nat)
    requires p < |b| && b[p].Occupied? && slots + Walk(b, p) == Walk(b, 0)
    ensures (slots + [p]) + Walk(b, Advance(b, p + 1)) == Walk(b, 0)
  {
    assert Walk(b, p) == [p] + Walk(b, p + 1);
    WalkSkip(b, p + 1);
    assert (slots + [p]) + Walk(b, p + 1) == slots + Walk(b, p);
  }

  /**
    The loop `for (it = begin(); it != end(); ++it)`, collecting the bucket
    positions it visits, for a table whose `begin()` rests on its first
    occupied bucket.
  */
  method Iterate<K, V>(m: DenseMap<K, V>) returns (slots: seq<nat>)
    requires Begin(m).ptr == Advance(m.buckets, 0)
    ensures slots == Walk(m.buckets, 0)
  {
    var b := m.buckets;
    var it := Begin(m);
    WalkSkip(b, 0);
    slots := [];
    while it.ptr != End(m).ptr
      invariant it.end == |b| && it.ptr <= |b|
      invariant it.ptr < |b| ==> b[it.ptr].Occupied?
      invariant slots + Walk(b, it.ptr) == Walk(b, 0)
      decreases |b| - it.ptr
    {
      WalkStep(b, slots, it.ptr);
      slots := slots + [it.ptr];
      it := Next(b, it);
    }
  }

  /**
    Iterating over a valid table visits exactly the occupied buckets, in
    array order, once each, and so reads exactly the stored entries.
  */
  method Entries<K, V>(m: DenseMap<K, V>, ghost hash: K -> Hash32) returns (slots: seq<nat>, pairs: seq<(K, V)>)
    requires Valid(m, hash)
    ensures |slots| == |pairs| == m.numEntries
    ensures forall s :: s in slots <==> 0 <= s < |m.buckets| && m.buckets[s].Occupied?
    ensures forall i, j :: 0 <= i < j < |slots| ==> slots[i] < slots[j]
    ensures forall i :: 0 <= i < |pairs| ==> pairs[i].0 in Contents(m.buckets) && Contents(m.buckets)[pairs[i].0] == pairs[i].1
    ensures forall k :: k in Contents(m.buckets) ==> exists i :: 0 <= i < |pairs| && pairs[i].0 == k
    ensures forall i :: 0 <= i < |slots| ==> slots[i] < |m.buckets| && m.buckets[slots[i]] == Occupied(pairs[i].0, pairs[i].1)
  {
    BeginSpec(m, hash);
    slots := Iterate(m);
    WalkMembers(m.buckets, 0);
    assert forall i :: 0 <= i < |slots| ==> slots[i] in Walk(m.buckets, 0);
    pairs := Read(m.buckets, slots);
    WalkEntries(m, hash, slots, pairs);
  }
}

=== FILE: growth.dfy ===
/**
  Reallocation of the bucket array: `grow` rehashes every live entry into a
  larger array without tombstones, and `shrink_and_clear` picks the smaller
  size `clear` falls back to when a big table has become mostly empty.
*/
module Growth {
  import opened Probing
  import opened Buckets
  import opened BucketLookup
  import opened Table

  /** 2^k. */
  function Pow2(k: nat): (r: nat)
    ensures IsPow2(r)
  {
    if k == 0 then 1 else 2 * Pow2(k - 1)
  }

  /** `llvm::Log2_32_Ceil`: the least k with x <= 2^k. */
  function CeilLog2(x: nat): (k: nat)
    requires x >= 1
    ensures x <= Pow2(k)
    ensures k > 0 ==> Pow2(k - 1) < x
    decreases x
  {
    if x == 1 then 0 else 1 + CeilLog2((x + 1) / 2)
  }

  /** The doubling loop of `grow`: `while (NumBuckets < AtLeast) NumBuckets <<= 1`. */
  function Doubling(n: nat, atLeast: nat): (r: nat)
    requires IsPow2(n) && n <= MaxBuckets && atLeast <= MaxBuckets
    ensures IsPow2(r) && n <= r <= MaxBuckets && atLeast <= r
    ensures r == n || n <= r / 2 < atLeast
    decreases atLeast - n
  {
    if n < atLeast then
      WordIsPow2();
      Pow2Below(n, MaxBuckets);
      Doubling(2 * n, atLeast)
    else
      n
  }

  /** `NumBuckets <<= 1` on the unsigned 32-bit bucket count. */
  function ShiftLeft(n: Hash32): Hash32 {
    U32(2 * n)
  }

  /** The bucket count after k turns of the doubling loop of `grow`, in 32 bits as written. */
  function DoubledAsWritten(n: Hash32, k: nat): Hash32 {
    if k == 0 then n else ShiftLeft(DoubledAsWritten(n, k - 1))
  }

  /**
    Asked for more than 2^31 buckets, the doubling loop of `grow` never
    ends: from a legal bucket count every turn leaves 0 or a power of two of
    at most 2^31 (2^31 shifts to 0, and 0 stays 0), so `NumBuckets < AtLeast`
    holds after every turn.
  */
  lemma {:induction false} GrowLoopNeverEnds(n: nat, atLeast: Hash32, k: nat)
    requires ValidCapacity(n) && atLeast > MaxBuckets
    ensures var v := DoubledAsWritten(n, k);
      && (v == 0 || (IsPow2(v) && v <= MaxBuckets))
      && v < atLeast
  {
    if k > 0 {
      GrowLoopNeverEnds(n, atLeast, k - 1);
      ShiftStaysLegal(DoubledAsWritten(n, k - 1));
    }
  }

  /** One 32-bit shift of 0 or of a power of two up to 2^31 gives 0 or a power of two up to 2^31. */
  lemma ShiftStaysLegal(v: Hash32)
    requires v == 0 || (IsPow2(v) && v <= MaxBuckets)
    ensures ShiftLeft(v) == 0 || (IsPow2(ShiftLeft(v)) && ShiftLeft(v) <= MaxBuckets)
  {
    if v == 0 {
      assert ShiftLeft(v) == 0;
    } else if v < MaxBuckets {
      WordIsPow2();
      Pow2Below(v, MaxBuckets);
      U32Exact(2 * v);
      assert (2 * v) / 2 == v;
    } else {
      assert 2 * v == Word;
    }
  }

  /**
    The new `NumBuckets` chosen by `grow(AtLeast)`: at least 64 and at least
    `AtLeast`, and the smallest such power of two reached by doubling the old
    size.
  */
  function GrowSize(n: nat, atLeast: nat): (r: nat)
    requires ValidCapacity(n) && atLeast <= MaxBuckets
    ensures ValidCapacity(r) && IsPow2(r)
    ensures 64 <= r && n <= r && atLeast <= r
    ensures r == (if n < 64 then 64 else n) || r / 2 < atLeast
  {
    assert IsPow2(64);
    WordIsPow2();
    Doubling(if n < 64 then 64 else n, atLeast)
  }

  /** A key from the old array that is not yet in the new one goes to an empty bucket of the new array. */
  lemma ReinsertStep<K, V>(src: seq<Bucket<K, V>>, hash: K -> Hash32, i: nat, acc: seq<Bucket<K, V>>)
    requires i < |src| && Unique(src) && src[i].Occupied?
    requires Shaped(acc, hash) && |acc| > 0
    requires TagCount(src, OccupiedTag) < |acc|
    requires TagCount(acc, TombstoneTag) == 0
    requires TagCount(acc, OccupiedTag) == TagCount(src[..i], OccupiedTag)
    requires Unique(src[..i]) && Contents(acc) == Contents(src[..i])
    ensures Probeable(acc)
    ensures Lookup(acc, hash, src[i].key).Vacant?
    ensures var s := Lookup(acc, hash, src[i].key).slot;
      && acc[s].Empty?
      && Shaped(acc[s := src[i]], hash)
      && TagCount(acc[s := src[i]], TombstoneTag) == 0
      && TagCount(acc[s := src[i]], OccupiedTag) == TagCount(src[..i + 1], OccupiedTag)
      && Unique(src[..i + 1])
      && Contents(acc[s := src[i]]) == Contents(src[..i + 1])
  {
    var k, v := src[i].key, src[i].value;
    ContentsPrefixStep(src, i);
    assert src[..i + 1][..i] == src[..i];
    CountPrefixMono(src, i + 1, |src|, OccupiedTag);
    assert src[..|src|] == src;
    HasEmptyIffRoom(acc);
    ProbeSpec(acc, hash, k);
    var s := Lookup(acc, hash, k).slot;
    ShapedPlace(acc, hash, s, k, v);
    CountUpdate(acc, s, src[i], OccupiedTag);
    CountUpdate(acc, s, src[i], TombstoneTag);
  }

  /** An unoccupied bucket of the old array adds nothing to the new one. */
  lemma ReinsertSkip<K, V>(src: seq<Bucket<K, V>>, i: nat)
    requires i < |src| && Unique(src) && !src[i].Occupied?
    ensures Unique(src[..i]) && Unique(src[..i + 1])
    ensures TagCount(src[..i + 1], OccupiedTag) == TagCount(src[..i], OccupiedTag)
    ensures Contents(src[..i + 1]) == Contents(src[..i])
  {
    ContentsPrefixStep(src, i);
    assert src[..i + 1][..i] == src[..i];
  }

  /**
    The reinsertion loop of `grow`: each live entry of `src`, from index i
    on and in array order, is placed where `LookupBucketFor` sends it in the
    new array `acc`.
  */
  function Reinsert<K(==), V>(src: seq<Bucket<K, V>>, hash: K -> Hash32, i: nat, acc: seq<Bucket<K, V>>): (r: seq<Bucket<K, V>>)
    requires i <= |src| && Unique(src)
    requires Shaped(acc, hash) && |acc| > 0
    requires TagCount(src, OccupiedTag) < |acc|
    requires TagCount(acc, TombstoneTag) == 0
    requires TagCount(acc, OccupiedTag) == TagCount(src[..i], OccupiedTag)
    requires Unique(src[..i]) && Contents(acc) == Contents(src[..i])
    ensures Shaped(r, hash) && |r| == |acc|
    ensures TagCount(r, TombstoneTag) == 0
    ensures TagCount(r, OccupiedTag) == TagCount(src, OccupiedTag)
    ensures Contents(r) == Contents(src)
    decreases |src| - i
  {
    if i == |src| then
      assert src[..i] == src;
      acc
    else if src[i].Occupied? then
      ReinsertStep(src, hash, i, acc);
      var s := Lookup(acc, hash, src[i].key).slot;
      Reinsert(src, hash, i + 1, acc[s := src[i]])
    else
      ReinsertSkip(src, i);
      Reinsert(src, hash, i + 1, acc)
  }

  /** The starting point of the reinsertion loop: a fresh array large enough for every live entry. */
  lemma ReinsertStart<K, V>(m: DenseMap<K, V>, hash: K -> Hash32, n: nat)
    requires Valid(m, hash) && ValidCapacity(n) && n >= 64 && n >= |m.buckets|
    ensures Shaped(Fill<K, V>(n), hash)
    ensures TagCount(m.buckets, OccupiedTag) < n
    ensures TagCount(Fill<K, V>(n), TombstoneTag) == 0
    ensures TagCount(Fill<K, V>(n), OccupiedTag) == TagCount(m.buckets[..0], OccupiedTag)
    ensures Unique(m.buckets[..0]) && Contents(Fill<K, V>(n)) == Contents(m.buckets[..0])
  {
    FreshValid<K, V>(n, hash);
    RoomLeft(m, hash);
    assert m.buckets[..0] == [];
    ContentsFill<K, V>(0);
    assert Fill<K, V>(0) == [];
  }

  /**
    `grow(AtLeast)`: a new array of `GrowSize` buckets holding the same
    entries, with no tombstones.
  */
  function Grow<K(==), V>(m: DenseMap<K, V>, hash: K -> Hash32, atLeast: nat): (r: DenseMap<K, V>)
    requires Valid(m, hash) && atLeast <= MaxBuckets
    ensures Valid(r, hash)
    ensures |r.buckets| == GrowSize(|m.buckets|, atLeast)
    ensures r.numEntries == m.numEntries && r.numTombstones == 0
    ensures Contents(r.buckets) == Contents(m.buckets)
  {
    var n := GrowSize(|m.buckets|, atLeast);
    ReinsertStart(m, hash, n);
    var r := DenseMap(Reinsert(m.buckets, hash, 0, Fill(n)), m.numEntries, 0);
    ValidFromRoom(r, hash);
    r
  }

  /**
    The size `shrink_and_clear` picks for a table that held e entries: 64 for
    at most 32 entries, otherwise `1 << (Log2_32_Ceil(e) + 1)`, the power of
    two at least twice e and below four times e.
  */
  function ShrinkSize(e: nat): (r: nat)
    requires e * 4 < MaxBuckets
    ensures ValidCapacity(r) && IsPow2(r) && 64 <= r
    ensures 2 * e <= r
    ensures e > 32 ==> r < 4 * e
    ensures e <= 32 ==> r == 64
  {
    assert IsPow2(64);
    if e > 32 then Pow2(CeilLog2(e) + 1) else 64
  }
}

=== FILE: iterators.dfy ===
/**
  `VmkitDenseMapIterator`: a bucket position plus the end of the array.
  Construction and `operator++` skip empty and tombstone buckets, so an
  iterator rests only on occupied buckets or at the end.
*/
module Iterators {
  import opened Buckets

  datatype Iterator = Iterator(ptr: nat, end: nat)

  /** `AdvancePastEmptyBuckets`: the first occupied bucket at or after p, or the end. */
  function Advance<K, V>(b: seq<Bucket<K, V>>, p: nat): (q: nat)
    requires p <= |b|
    ensures p <= q <= |b|
    ensures q < |b| ==> b[q].Occupied?
    ensures forall x :: p <= x < q ==> !b[x].Occupied?
    decreases |b| - p
  {
    if p < |b| && !b[p].Occupied? then Advance(b, p + 1) else p
  }

  /** The constructor `VmkitDenseMapIterator(Pos, E)`. */
  function At<K, V>(b: seq<Bucket<K, V>>, p: nat): (it: Iterator)
    requires p <= |b|
    ensures it.end == |b| && p <= it.ptr <= |b|
    ensures it.ptr < |b| ==> b[it.ptr].Occupied?
    ensures forall x :: p <= x < it.ptr ==> !b[x].Occupied?
  {
    Iterator(Advance(b, p), |b|)
  }

  /** Pre-increment `operator++`. */
  function Next<K, V>(b: seq<Bucket<K, V>>, it: Iterator): (it': Iterator)
    requires it.end == |b| && it.ptr < |b|
    ensures it'.end == |b| && it.ptr < it'.ptr <= |b|
    ensures it'.ptr < |b| ==> b[it'.ptr].Occupied?
    ensures forall x :: it.ptr < x < it'.ptr ==> !b[x].Occupied?
  {
    At(b, it.ptr + 1)
  }

  /** Bucket positions an iteration visits, from position p (before skipping) to the end. */
  function Walk<K, V>(b: seq<Bucket<K, V>>, p: nat): seq<nat>
    requires p <= |b|
    decreases |b| - p
  {
    var q := Advance(b, p);
    if q == |b| then [] else [q] + Walk(b, q + 1)
  }

  /** Starting a walk after the skip the constructor makes changes nothing. */
  lemma WalkSkip<K, V>(b: seq<Bucket<K, V>>, p: nat)
    requires p <= |b|
    ensures Walk(b, Advance(b, p)) == Walk(b, p)
  {
  }

  /** Skipping unoccupied buckets does not change how many occupied ones precede. */
  lemma {:induction false} CountSkipped<K, V>(b: seq<Bucket<K, V>>, p: nat, q: nat)
    requires p <= q <= |b|
    requires forall x :: p <= x < q ==> !b[x].Occupied?
    ensures TagCount(b[..q], OccupiedTag) == TagCount(b[..p], OccupiedTag)
    decreases q - p
  {
    if p < q {
      CountSkipped(b, p, q - 1);
      assert b[..q][..q - 1] == b[..q - 1];
    }
  }

  /** The walk from p visits exactly the occupied buckets at or after p. */
  lemma {:induction false} WalkMembers<K, V>(b: seq<Bucket<K, V>>, p: nat)
    requires p <= |b|
    ensures forall s :: s in Walk(b, p) <==> p <= s < |b| && b[s].Occupied?
    decreases |b| - p
  {
    var q := Advance(b, p);
    if q < |b| {
      WalkMembers(b, q + 1);
      assert Walk(b, p) == [q] + Walk(b, q + 1);
    }
  }

  /** The walk from p moves strictly forward. */
  lemma {:induction false} WalkOrdered<K, V>(b: seq<Bucket<K, V>>, p: nat)
    requires p <= |b|
    ensures forall i, j :: 0 <= i < j < |Walk(b, p)| ==> Walk(b, p)[i] < Walk(b, p)[j]
    decreases |b| - p
  {
    var q := Advance(b, p);
    if q < |b| {
      WalkOrdered(b, q + 1);
      WalkMembers(b, q + 1);
      var w, w' := Walk(b, p), Walk(b, q + 1);
      assert w == [q] + w';
      forall i, j | 0 <= i < j < |w|
        ensures w[i] < w[j]
      {
        if i == 0 {
          assert w[j] == w'[j - 1] && w'[j - 1] in w';
        } else {
          assert w[i] == w'[i - 1] && w[j] == w'[j - 1];
        }
      }
    }
  }

  /** The walk from p visits as many buckets as are occupied at or after p. */
  lemma {:induction false} WalkCount<K, V>(b: seq<Bucket<K, V>>, p: nat)
    requires p <= |b|
    ensures |Walk(b, p)| + TagCount(b[..p], OccupiedTag) == TagCount(b, OccupiedTag)
    decreases |b| - p
  {
    var q := Advance(b, p);
    CountSkipped(b, p, q);
    assert b[..|b|] == b;
    if q < |b| {
      WalkCount(b, q + 1);
      assert b[..q + 1][..q] == b[..q];
    }
  }

  /**
    An iteration from position p visits, in increasing array order, exactly
    the occupied buckets at or after p, and as many as there are.
  */
  lemma WalkSpec<K, V>(b: seq<Bucket<K, V>>, p: nat)
    requires p <= |b|
    ensures forall s :: s in Walk(b, p) <==> p <= s < |b| && b[s].Occupied?
    ensures forall i, j :: 0 <= i < j < |Walk(b, p)| ==> Walk(b, p)[i] < Walk(b, p)[j]
    ensures |Walk(b, p)| + TagCount(b[..p], OccupiedTag) == TagCount(b, OccupiedTag)
  {
    WalkMembers(b, p);
    WalkOrdered(b, p);
    WalkCount(b, p);
  }
}

=== FILE: lookup.dfy ===
/**
  `LookupBucketFor`: quadratic probing for a key, remembering the first
  tombstone met so that an insertion can reuse it.
*/
module BucketLookup {
  import opened Probing
  import opened Buckets

  datatype Option<T> = None | Some(value: T)

  /**
    Outcome of a lookup: the bucket holding the key (`true` in the C++), the
    bucket an insertion of the key should use (`false` with a bucket), or no
    bucket at all because nothing is allocated (`false` with a null bucket).
  */
  datatype LookupResult = Found(slot: nat) | Vacant(slot: nat) | NoBuckets

  ghost predicate Holds<K, V>(x: Bucket<K, V>, k: K) {
    x.Occupied? && x.key == k
  }

  ghost predicate HasEmpty<K, V>(b: seq<Bucket<K, V>>) {
    exists s :: 0 <= s < |b| && b[s].Empty?
  }

  /** What probing needs: a power-of-two array that is unallocated or keeps an empty bucket. */
  ghost predicate Probeable<K, V>(b: seq<Bucket<K, V>>) {
    ValidCapacity(|b|) && (|b| == 0 || HasEmpty(b))
  }

  /** Some probe at index i or later, among the first n, meets an empty bucket. */
  ghost predicate EmptyAhead<K, V>(b: seq<Bucket<K, V>>, h: Hash32, i: nat)
    requires |b| > 0
  {
    exists j: nat :: i <= j < |b| && b[Slot(h, j, |b|)].Empty?
  }

  /** The key is in none of the first e buckets of the probe chain. */
  ghost predicate AbsentBefore<K, V>(b: seq<Bucket<K, V>>, key: K, h: Hash32, e: nat)
    requires |b| > 0
  {
    forall j: nat :: j < e ==> !Holds(b[Slot(h, j, |b|)], key)
  }

  /** One empty bucket anywhere is met by every probe chain within n probes. */
  lemma EmptyOnEveryChain<K, V>(b: seq<Bucket<K, V>>, h: Hash32)
    requires Probeable(b) && |b| > 0
    ensures EmptyAhead(b, h, 0)
  {
    var s :| 0 <= s < |b| && b[s].Empty?;
    SlotsCover(h, |b|, s);
    var i :| 0 <= i < |b| && Slot(h, i, |b|) == s;
    assert b[Slot(h, i, |b|)].Empty?;
  }

  /**
    The probe loop from its i-th iteration on, with `tomb` the first
    tombstone seen so far.  It stops at a bucket holding the key or at an
    empty bucket; it cannot run past n probes because an empty bucket lies
    ahead on the chain.
  */
  function ProbeFrom<K(==), V>(b: seq<Bucket<K, V>>, key: K, h: Hash32, i: nat, tomb: Option<nat>): (r: LookupResult)
    requires |b| > 0 && EmptyAhead(b, h, i)
    requires tomb.Some? ==> tomb.value < |b|
    ensures !r.NoBuckets? && r.slot < |b|
    decreases |b| - i
  {
    var s := Slot(h, i, |b|);
    match b[s]
    case Occupied(k, _) => if k == key then Found(s) else ProbeFrom(b, key, h, i + 1, tomb)
    case Empty => Vacant(if tomb.Some? then tomb.value else s)
    case Tombstone => ProbeFrom(b, key, h, i + 1, if tomb.Some? then tomb else Some(s))
  }

  function Lookup<K(==), V>(b: seq<Bucket<K, V>>, hash: K -> Hash32, key: K): (r: LookupResult)
    requires Probeable(b)
    ensures r.NoBuckets? <==> |b| == 0
    ensures !r.NoBuckets? ==> r.slot < |b|
  {
    if |b| == 0 then NoBuckets
    else
      EmptyOnEveryChain(b, hash(key));
      ProbeFrom(b, key, hash(key), 0, None)
  }

  /** A probe that meets neither an empty bucket nor the key extends what is known about the chain. */
  lemma ChainStep<K, V>(b: seq<Bucket<K, V>>, key: K, h: Hash32, i: nat)
    requires |b| > 0 && ChainClear(b, h, i) && AbsentBefore(b, key, h, i)
    requires !b[Slot(h, i, |b|)].Empty? && !Holds(b[Slot(h, i, |b|)], key)
    ensures ChainClear(b, h, i + 1) && AbsentBefore(b, key, h, i + 1)
    ensures ChainFull(b, h, i) && b[Slot(h, i, |b|)].Occupied? ==> ChainFull(b, h, i + 1)
  {
  }

  /** Each probe step keeps the facts the loop has gathered about the chain so far. */
  lemma {:induction false} ProbeFromSound<K, V>(b: seq<Bucket<K, V>>, key: K, h: Hash32, i: nat, tomb: Option<nat>)
    requires ValidCapacity(|b|) && |b| > 0 && EmptyAhead(b, h, i)
    requires ChainClear(b, h, i) && AbsentBefore(b, key, h, i)
    requires tomb.None? ==> ChainFull(b, h, i)
    requires tomb.Some? ==> tomb.value < |b| && FirstFree(b, h, tomb.value)
    ensures var r := ProbeFrom(b, key, h, i, tomb);
      && (r.Found? ==> Holds(b[r.slot], key))
      && (r.Vacant? ==> FirstFree(b, h, r.slot))
      && (r.Vacant? ==> exists e: nat :: e < |b| && b[Slot(h, e, |b|)].Empty? && AbsentBefore(b, key, h, e))
    decreases |b| - i
  {
    var s := Slot(h, i, |b|);
    var j: nat :| i <= j < |b| && b[Slot(h, j, |b|)].Empty?;
    match b[s]
    case Occupied(k, _) =>
      if k != key {
        ChainStep(b, key, h, i);
        ProbeFromSound(b, key, h, i + 1, tomb);
      }
    case Empty =>
      if tomb.None? {
        assert FirstFree(b, h, s) by {
          assert Slot(h, i, |b|) == s && ChainFull(b, h, i);
        }
      }
      assert b[Slot(h, i, |b|)].Empty? && AbsentBefore(b, key, h, i);
    case Tombstone =>
      ChainStep(b, key, h, i);
      if tomb.None? {
        assert FirstFree(b, h, s) by {
          assert Slot(h, i, |b|) == s && ChainFull(b, h, i);
        }
      }
      ProbeFromSound(b, key, h, i + 1, if tomb.Some? then tomb else Some(s));
  }

  /**
    The contract of `LookupBucketFor`: it reports "found" exactly for stored
    keys, with the bucket that holds the key; otherwise it hands back the
    first tombstone on the probe chain, or the empty bucket that ended the
    probe when no tombstone came first.
  */
  lemma ProbeSpec<K, V>(b: seq<Bucket<K, V>>, hash: K -> Hash32, key: K)
    requires Shaped(b, hash) && Probeable(b)
    ensures var r := Lookup(b, hash, key);
      && (r.Found? <==> key in Contents(b))
      && (r.Found? ==> b[r.slot] == Occupied(key, Contents(b)[key]))
      && (r.Vacant? ==> FirstFree(b, hash(key), r.slot))
  {
    if |b| > 0 {
      var h := hash(key);
      EmptyOnEveryChain(b, h);
      ProbeFromSound(b, key, h, 0, None);
      var r := Lookup(b, hash, key);
      if r.Found? {
        ContentsAt(b, r.slot);
      }
      if r.Vacant? && key in Contents(b) {
        var s := ContentsHas(b, key);
        assert false;
      }
    }
  }

  /** The bucket the loop examines, `BucketNo & (NumBuckets - 1)`, is the i-th probe of the chain. */
  method MaskedBucket(ghost h: Hash32, ghost i: nat, bucketNo: Hash32, n: nat) returns (s: nat)
    requires IsPow2(n) && bucketNo == BucketNo(h, i)
    ensures s == Slot(h, i, n) && s < n
  {
    s := BitAnd(bucketNo, n - 1);
    MaskIsMod(bucketNo, n);
  }

  /** Below 2^32 probes, `BucketNo += ProbeAmt++` takes probe i to probe i + 1 and `ProbeAmt` does not wrap. */
  lemma ProbeAdvance(h: Hash32, i: nat)
    requires i + 2 < Word
    ensures U32(BucketNo(h, i) + (i + 1)) == BucketNo(h, i + 1) && U32(i + 1 + 1) == i + 2
  {
    BucketNoStep(h, i);
    U32Exact(i + 2);
  }

  /**
    A probe that meets neither the key nor an empty bucket passes the search
    on to the next probe, remembering the bucket if it is the first
    tombstone; an empty bucket still lies ahead.
  */
  lemma ProbeStep<K, V>(b: seq<Bucket<K, V>>, key: K, h: Hash32, i: nat, tomb: Option<nat>)
    requires 0 < |b| <= MaxBuckets && EmptyAhead(b, h, i)
    requires tomb.Some? ==> tomb.value < |b|
    requires !b[Slot(h, i, |b|)].Empty? && !Holds(b[Slot(h, i, |b|)], key)
    ensures i + 1 < |b| && EmptyAhead(b, h, i + 1)
    ensures var s := Slot(h, i, |b|);
      var tomb' := if b[s].Tombstone? && tomb.None? then Some(s) else tomb;
      ProbeFrom(b, key, h, i + 1, tomb') == ProbeFrom(b, key, h, i, tomb)
  {
    BucketNoStep(h, i);
  }

  /**
    The C++ probe loop: `BucketNo` and `ProbeAmt` are unsigned 32-bit, the
    bucket is `BucketNo & (NumBuckets - 1)`, and `BucketNo += ProbeAmt++`.
    It computes the probe from the first step on.
  */
  method ProbeLoop<K(==), V>(b: seq<Bucket<K, V>>, key: K, h: Hash32) returns (r: LookupResult)
    requires IsPow2(|b|) && |b| <= MaxBuckets && EmptyAhead(b, h, 0)
    ensures r == ProbeFrom(b, key, h, 0, None)
  {
    var bucketNo: Hash32 := h;
    var probeAmt: Hash32 := 1;
    var foundTombstone: Option<nat> := None;
    ghost var i: nat := 0;
    U32Exact(h);
    assert BucketNo(h, 0) == U32(h + Tri(0));
    while true
      invariant probeAmt == i + 1 && bucketNo == BucketNo(h, i)
      invariant EmptyAhead(b, h, i)
      invariant foundTombstone.Some? ==> foundTombstone.value < |b|
      invariant ProbeFrom(b, key, h, i, foundTombstone) == ProbeFrom(b, key, h, 0, None)
      decreases |b| - i
    {
      var s := MaskedBucket(h, i, bucketNo, |b|);
      if b[s].Occupied? && b[s].key == key {
        r := Found(s);
        break;
      }
      if b[s].Empty? {
        r := Vacant(if foundTombstone.Some? then foundTombstone.value else s);
        break;
      }
      ProbeStep(b, key, h, i, foundTombstone);
      ProbeAdvance(h, i);
      if b[s].Tombstone? && foundTombstone.None? {
        foundTombstone := Some(s);
      }
      bucketNo := U32(bucketNo + probeAmt);
      probeAmt := U32(probeAmt + 1);
      i := i + 1;
    }
  }

  /**
    `LookupBucketFor`: no bucket when none is allocated, otherwise the probe
    loop, which ends because an empty bucket lies on every chain.
  */
  method LookupBucketFor<K(==), V>(b: seq<Bucket<K, V>>, hash: K -> Hash32, key: K) returns (r: LookupResult)
    requires Shaped(b, hash) && Probeable(b)
    ensures r == Lookup(b, hash, key)
    ensures r.NoBuckets? <==> |b| == 0
    ensures r.Found? <==> key in Contents(b)
    ensures r.Found? ==> r.slot < |b| && b[r.slot] == Occupied(key, Contents(b)[key])
    ensures r.Vacant? ==> FirstFree(b, hash(key), r.slot)
  {
    if |b| == 0 {
      r := NoBuckets;
    } else {
      EmptyOnEveryChain(b, hash(key));
      r := ProbeLoop(b, key, hash(key));
    }
    ProbeSpec(b, hash, key);
  }
}

=== FILE: probing.dfy ===
/**
  Unsigned 32-bit arithmetic and the quadratic probe sequence of the dense map.

  `LookupBucketFor` starts `BucketNo` at the key's hash and, after the i-th
  probe, adds `ProbeAmt == i + 1`, so the i-th probe (counting from 0) looks
  at `BucketNo == hash + Tri(i)` (wrapped to 32 bits), masked with
  `NumBuckets - 1`.  For a power-of-two bucket count the mask is the
  remainder modulo `NumBuckets`.  The main result of this module is that the
  first `NumBuckets` probes visit every bucket exactly once, which is what
  makes probing terminate as soon as one empty bucket exists.
*/
module Probing {

  /** 2^32: unsigned arithmetic in the table wraps modulo this. */
  const Word: nat := 0x1_0000_0000

  /** 2^31: the largest power of two an unsigned 32-bit bucket count can hold. */
  const MaxBuckets: nat := 0x8000_0000

  /** An unsigned 32-bit value, such as the key traits' hash. */
  type Hash32 = x: nat | x < Word

  /** Unsigned 32-bit wrap-around of an integer result. */
  function U32(x: int): Hash32 {
    x % Word
  }

  /** Below 2^32, the unsigned 32-bit view of a value is the value. */
  lemma U32Exact(x: int)
    requires 0 <= x < Word
    ensures U32(x) == x
  {
  }

  ghost predicate IsPow2(n: nat)
    decreases n
  {
    n == 1 || (n >= 2 && n % 2 == 0 && IsPow2(n / 2))
  }

  /** `x & y` on unsigned values: the bits both have, from the lowest up. */
  function BitAnd(x: nat, y: nat): nat {
    if x == 0 || y == 0 then 0
    else 2 * BitAnd(x / 2, y / 2) + (if x % 2 == 1 && y % 2 == 1 then 1 else 0)
  }

  /** Euclidean division: a splits into whole multiples of m and a remainder below m. */
  lemma DivModSplit(a: int, m: int)
    requires m > 0
    ensures a == (a / m) * m + a % m && 0 <= a % m < m
  {
  }

  /** Masking with an odd mask keeps the lowest bit and masks the rest one bit lower. */
  lemma MaskStep(x: nat, m: nat)
    requires x > 0 && m >= 1
    ensures BitAnd(x, 2 * m - 1) == 2 * BitAnd(x / 2, m - 1) + x % 2
  {
    assert (2 * m - 1) % 2 == 1 && (2 * m - 1) / 2 == m - 1;
  }

  /** The remainder modulo 2m is twice the halved value's remainder modulo m, plus the lowest bit. */
  lemma ModOfHalf(x: nat, m: nat)
    requires m >= 1
    ensures x % (2 * m) == 2 * ((x / 2) % m) + x % 2
  {
    var y := x / 2;
    var q, r := y / m, y % m;
    DivModSplit(y, m);
    var qm := q * m;
    assert y == qm + r && 0 <= r < m;
    assert q * (2 * m) == 2 * qm;
    assert x == q * (2 * m) + (2 * r + x % 2);
    ModUnique(x, 2 * m, q, 2 * r + x % 2);
  }

  /** For a power of two n, masking with `n - 1` leaves the remainder modulo n. */
  lemma {:induction false} MaskIsMod(x: nat, n: nat)
    requires IsPow2(n)
    ensures BitAnd(x, n - 1) == x % n
    decreases n
  {
    if n > 1 && x > 0 {
      var m := n / 2;
      assert n == 2 * m && m >= 1;
      MaskIsMod(x / 2, m);
      MaskStep(x, m);
      ModOfHalf(x, m);
    }
  }

  /** A legal `NumBuckets`: zero (no storage yet) or a 32-bit power of two. */
  ghost predicate ValidCapacity(n: nat) {
    n == 0 || (IsPow2(n) && n <= MaxBuckets)
  }

  /** Sum of the probe amounts 1 + 2 + ... + i added before the i-th probe. */
  function Tri(i: nat): nat {
    if i == 0 then 0 else Tri(i - 1) + i
  }

  /** Value of the running `BucketNo` at the i-th probe. */
  function BucketNo(h: Hash32, i: nat): Hash32 {
    U32(h + Tri(i))
  }

  /** Bucket examined by the i-th probe: `BucketNo & (NumBuckets - 1)`, which `MaskIsMod` shows is this remainder. */
  function Slot(h: Hash32, i: nat, n: nat): (s: nat)
    requires n > 0
    ensures s < n
  {
    BucketNo(h, i) % n
  }

  /** `BucketNo += ProbeAmt++` moves the running value from probe i to probe i + 1. */
  lemma BucketNoStep(h: Hash32, i: nat)
    ensures BucketNo(h, i + 1) == U32(BucketNo(h, i) + (i + 1))
  {
    var x := h + Tri(i);
    assert h + Tri(i + 1) == x + (i + 1);
    ModAddCongruent(x, i + 1, Word);
  }

  // ---------------------------------------------------------------------------
  // Division facts, proved from the uniqueness of quotient and remainder.

  lemma MulAtLeast(d: int, n: int)
    requires d >= 1 && n > 0
    ensures d * n >= n
  {
    var k := d - 1;
    assert d * n == k * n + n;
    MulNonneg(k, n);
  }

  lemma {:induction false} MulNonneg(k: nat, n: nat)
    ensures k * n >= 0
  {
    if k > 0 {
      MulNonneg(k - 1, n);
      assert k * n == (k - 1) * n + n;
    }
  }

  lemma ModUnique(x: int, n: int, q: int, r: int)
    requires n > 0 && 0 <= r < n && x == q * n + r
    ensures x % n == r && x / n == q
  {
    var q0, r0 := x / n, x % n;
    assert x == q0 * n + r0;
    assert (q - q0) * n == r0 - r;
    if q > q0 {
      MulAtLeast(q - q0, n);
      assert false;
    } else if q < q0 {
      assert q0 * n - q * n == r - r0;
      assert (q0 - q) * n == q0 * n - q * n;
      MulAtLeast(q0 - q, n);
      assert false;
    }
  }

  lemma ModAddCongruent(x: int, k: int, n: int)
    requires n > 0
    ensures (x % n + k) % n == (x + k) % n
  {
    var q, r := x / n, x % n;
    var q2, r2 := (r + k) / n, (r + k) % n;
    assert x + k == (q + q2) * n + r2;
    ModUnique(x + k, n, q + q2, r2);
  }

  lemma ModOfMultiple(q: int, n: int)
    requires n > 0
    ensures (q * n) % n == 0
  {
    ModUnique(q * n, n, q, 0);
  }

  /** A multiple of 2m is a multiple of m, and 2x is a multiple of 2m exactly when x is one of m. */
  lemma DoubleDivides(x: int, m: int)
    requires m > 0
    ensures (2 * x) % (2 * m) == 0 <==> x % m == 0
  {
    var q, r := x / m, x % m;
    assert 2 * x == q * (2 * m) + 2 * r;
    ModUnique(2 * x, 2 * m, q, 2 * r);
  }

  lemma EvenOfMultiple(x: int, m: int)
    requires m > 0 && x % (2 * m) == 0
    ensures x % 2 == 0
  {
    var q := x / (2 * m);
    assert x == (q * m) * 2 + 0;
    ModUnique(x, 2, q * m, 0);
  }

  lemma OddTimesOdd(a: int, b: int)
    requires a % 2 == 1 && b % 2 == 1
    ensures (a * b) % 2 == 1
  {
    var p, q := a / 2, b / 2;
    assert a * b == (2 * p * q + p + q) * 2 + 1;
    ModUnique(a * b, 2, 2 * p * q + p + q, 1);
  }

  /** Only the even factor of a product can carry the powers of two that divide it. */
  lemma {:induction false} OddFactor(a: nat, b: nat, m: nat)
    requires IsPow2(m) && (a * b) % m == 0 && b % 2 == 1
    ensures a % m == 0
    decreases m
  {
    if m != 1 {
      var m2 := m / 2;
      assert m == 2 * m2;
      EvenOfMultiple(a * b, m2);
      if a % 2 == 1 {
        OddTimesOdd(a, b);
        assert false;
      }
      var a2 := a / 2;
      assert a == 2 * a2;
      assert a * b == 2 * (a2 * b);
      DoubleDivides(a2 * b, m2);
      OddFactor(a2, b, m2);
      DoubleDivides(a2, m2);
    }
  }

  lemma Pow2Positive(n: nat)
    requires IsPow2(n)
    ensures n >= 1
  {
  }

  lemma {:induction false} Pow2Below(n: nat, m: nat)
    requires IsPow2(n) && IsPow2(m) && n < m
    ensures 2 * n <= m
    decreases m
  {
    if n != 1 {
      Pow2Below(n / 2, m / 2);
    }
  }

  /** A power of two divides every power of two at least as large. */
  lemma {:induction false} Pow2Divides(n: nat, m: nat)
    requires IsPow2(n) && IsPow2(m) && n <= m
    ensures m % n == 0
    decreases m
  {
    if n < m {
      Pow2Below(n, m);
      Pow2Divides(n, m / 2);
      DoubleDivides(m / 2, n);
      var q := (m / 2) / n;
      assert m / 2 == q * n;
      ModOfMultiple(2 * q, n);
      assert m == (2 * q) * n;
    } else {
      ModOfMultiple(1, n);
    }
  }

  lemma {:induction false} Pow2Mul(a: nat, b: nat)
    requires IsPow2(a) && IsPow2(b)
    ensures IsPow2(a * b)
    decreases a
  {
    if a != 1 {
      Pow2Mul(a / 2, b);
      assert a * b == 2 * ((a / 2) * b);
      assert (a * b) / 2 == (a / 2) * b;
    }
  }

  lemma WordIsPow2()
    ensures IsPow2(Word) && IsPow2(MaxBuckets)
  {
    assert IsPow2(16) && IsPow2(8);
    Pow2Mul(16, 16);
    Pow2Mul(256, 256);
    Pow2Mul(65536, 65536);
    Pow2Mul(16, 8);
    Pow2Mul(128, 256);
    Pow2Mul(32768, 65536);
  }

  lemma ModAddMultiple(y: int, k: int, n: int)
    requires n > 0
    ensures (y + k * n) % n == y % n
  {
    var q, r := y / n, y % n;
    assert y + k * n == (q + k) * n + r;
    ModUnique(y + k * n, n, q + k, r);
  }

  lemma DivExact(x: int, n: int)
    requires n > 0 && x % n == 0
    ensures x == (x / n) * n
  {
  }

  lemma MulAssoc(a: int, b: int, c: int)
    ensures a * (b * c) == (a * b) * c
  {
  }

  /** Masking a 32-bit wrapped value with a smaller power of two sees through the wrap. */
  lemma WrapThenMask(x: nat, n: nat)
    requires IsPow2(n) && n <= Word
    ensures U32(x) % n == x % n
  {
    WordIsPow2();
    Pow2Positive(n);
    Pow2Divides(n, Word);
    var c := Word / n;
    DivExact(Word, n);
    var q := x / Word;
    assert x == q * Word + U32(x);
    MulAssoc(q, c, n);
    ModAddMultiple(U32(x), q * c, n);
  }

  /** For a power-of-two size the probe sequence is (hash + Tri(i)) mod n. */
  lemma SlotIsMod(h: Hash32, i: nat, n: nat)
    requires IsPow2(n) && n <= MaxBuckets
    ensures Slot(h, i, n) == (h + Tri(i)) % n
  {
    WrapThenMask(h + Tri(i), n);
  }

  /** Two values with the same remainder differ by a multiple. */
  lemma CongruentDiff(x: int, d: int, n: int)
    requires n > 0 && (x + d) % n == x % n
    ensures d % n == 0
  {
    var q1, q2 := (x + d) / n, x / n;
    assert x + d == q1 * n + x % n;
    assert x == q2 * n + x % n;
    assert d == (q1 - q2) * n;
    ModOfMultiple(q1 - q2, n);
  }

  lemma DoubleOfMultiple(d: int, n: int)
    requires n > 0 && d % n == 0
    ensures (2 * d) % (2 * n) == 0
  {
    DoubleDivides(d, n);
  }

  lemma TriDouble(i: nat)
    ensures 2 * Tri(i) == i * (i + 1)
  {
  }

  /** Tri(j) - Tri(i) == (j - i)(j + i + 1)/2. */
  lemma TriGap(i: nat, j: nat)
    requires i <= j
    ensures 2 * (Tri(j) - Tri(i)) == (j - i) * (j + i + 1)
  {
    TriDouble(i);
    TriDouble(j);
  }

  /** Tri(j) - Tri(i) == (j - i)(j + i + 1)/2 is never a multiple of n for i < j < n. */
  lemma TriGapNotMultiple(i: nat, j: nat, n: nat)
    requires IsPow2(n) && i < j < n
    ensures (Tri(j) - Tri(i)) % n != 0
  {
    var d := Tri(j) - Tri(i);
    if d % n == 0 {
      DoubleOfMultiple(d, n);
      TriGap(i, j);
      // 2n divides (j - i)(j + i + 1), and exactly one of the factors is odd
      var a, b := j - i, j + i + 1;
      assert (a * b) % (2 * n) == 0;
      assert IsPow2(2 * n);
      if a % 2 == 1 {
        assert (b * a) % (2 * n) == 0;
        OddFactor(b, a, 2 * n);
        ModUnique(b, 2 * n, 0, b);
      } else {
        assert a == 2 * (a / 2);
        ModUnique(b, 2, a / 2 + i, 1);
        OddFactor(a, b, 2 * n);
        ModUnique(a, 2 * n, 0, a);
      }
    }
  }

  /** Two different probes among the first n land in different buckets. */
  lemma SlotsDistinct(h: Hash32, i: nat, j: nat, n: nat)
    requires IsPow2(n) && n <= MaxBuckets
    requires i < j < n
    ensures Slot(h, i, n) != Slot(h, j, n)
  {
    SlotIsMod(h, i, n);
    SlotIsMod(h, j, n);
    if Slot(h, i, n) == Slot(h, j, n) {
      var x, d := h + Tri(i), Tri(j) - Tri(i);
      assert h + Tri(j) == x + d;
      CongruentDiff(x, d, n);
      TriGapNotMultiple(i, j, n);
    }
  }

  function Probed(h: Hash32, k: nat, n: nat): set<nat>
    requires n > 0
  {
    set i: nat | i < k :: Slot(h, i, n)
  }

  lemma {:induction false} ProbedSize(h: Hash32, k: nat, n: nat)
    requires IsPow2(n) && n <= MaxBuckets && k <= n
    ensures |Probed(h, k, n)| == k
  {
    if k > 0 {
      ProbedSize(h, k - 1, n);
      forall i: nat | i < k - 1
        ensures Slot(h, i, n) != Slot(h, k - 1, n)
      {
        SlotsDistinct(h, i, k - 1, n);
      }
      assert Probed(h, k, n) == Probed(h, k - 1, n) + {Slot(h, k - 1, n)};
    }
  }

  /** The bucket indices 0 .. n-1. */
  function Below(n: nat): (r: set<nat>)
    ensures forall x: int :: x in r <==> 0 <= x < n
    ensures |r| == n
  {
    if n == 0 then {} else Below(n - 1) + {n - 1}
  }

  lemma {:induction false} SubsetSize<T>(a: set<T>, b: set<T>)
    requires a <= b
    ensures |a| <= |b|
    decreases b
  {
    if a != {} {
      var x :| x in a;
      SubsetSize(a - {x}, b - {x});
    }
  }

  /**
    The first n probes reach every bucket: triangular offsets are a
    permutation of the residues modulo a power of two.
  */
  lemma SlotsCover(h: Hash32, n: nat, s: nat)
    requires IsPow2(n) && n <= MaxBuckets && s < n
    ensures exists i :: 0 <= i < n && Slot(h, i, n) == s
  {
    Pow2Positive(n);
    ProbedSize(h, n, n);
    if s !in Probed(h, n, n) {
      assert Probed(h, n, n) <= Below(n) - {s};
      SubsetSize(Probed(h, n, n), Below(n) - {s});
      assert false;
    }
  }
}

=== FILE: small_tables.dfy ===
/**
  `InsertIntoBucket` exactly as its second growth check is written, with a
  strict `<`.  For tables of 2 or 4 buckets `NumBuckets/8` is 0, so the
  check can never fire and an insertion can fill the last empty bucket;
  from then on every probe for an absent key runs forever.  The rest of the
  model uses `TombstoneCheck`, which also rehashes when no bucket would
  stay empty and otherwise decides as the code does.
*/
module SmallTables {
  import opened Probing
  import opened Buckets
  import opened BucketLookup
  import opened Table
  import opened VmkitDenseMap

  /** The second growth check of `InsertIntoBucket` as written: `NumBuckets-(NumEntries+NumTombstones) < NumBuckets/8`. */
  function TombstoneCheckAsWritten<K(==), V>(m: DenseMap<K, V>, hash: K -> Hash32, key: K, l: LookupResult, e: nat): (r: (DenseMap<K, V>, LookupResult))
    requires Valid(m, hash) && key !in Contents(m.buckets) && l == Lookup(m.buckets, hash, key) && l.Vacant?
    requires e == m.numEntries + 1 && 4 * e < 3 * |m.buckets| && e + m.numTombstones <= |m.buckets|
    ensures Valid(r.0, hash) && Contents(r.0.buckets) == Contents(m.buckets)
    ensures r.0.numEntries == m.numEntries && |m.buckets| <= |r.0.buckets|
    ensures r.1 == Lookup(r.0.buckets, hash, key) && r.1.Vacant?
    ensures e + r.0.numTombstones <= |r.0.buckets|
    ensures |m.buckets| >= 8 ==> e + r.0.numTombstones < |r.0.buckets|
  {
    var n := |m.buckets|;
    U32Exact(n - (e + m.numTombstones));
    if U32(n - (e + m.numTombstones)) < n / 8 then GrowAndLook(m, hash, key, n) else (m, l)
  }

  /**
    From 8 buckets up the corrected check and the check as written take the
    same decision, so the correction only changes tables of 2 or 4 buckets.
  */
  lemma CorrectionOnlyBelowEight<K, V>(m: DenseMap<K, V>, hash: K -> Hash32, key: K, l: LookupResult, e: nat)
    requires Valid(m, hash) && key !in Contents(m.buckets) && l == Lookup(m.buckets, hash, key) && l.Vacant?
    requires e == m.numEntries + 1 && 4 * e < 3 * |m.buckets| && e + m.numTombstones <= |m.buckets|
    requires |m.buckets| >= 8
    ensures TombstoneCheck(m, hash, key, l, e) == TombstoneCheckAsWritten(m, hash, key, l, e)
  {
    var n := |m.buckets|;
    U32Exact(n - (e + m.numTombstones));
    assert e + m.numTombstones == n ==> n - (e + m.numTombstones) < n / 8;
  }

  /**
    `InsertIntoBucket` with the check as written: the pair is stored and
    the counters stay right, but the table may be left without an empty
    bucket.
  */
  function InsertIntoBucketAsWritten<K(==), V>(m: DenseMap<K, V>, hash: K -> Hash32, key: K, value: V, l: LookupResult): (r: (DenseMap<K, V>, nat))
    requires Valid(m, hash) && |m.buckets| < MaxBuckets
    requires key !in Contents(m.buckets) && l == Lookup(m.buckets, hash, key)
    ensures Shaped(r.0.buckets, hash) && Contents(r.0.buckets) == Contents(m.buckets)[key := value]
    ensures r.0.numEntries == TagCount(r.0.buckets, OccupiedTag) == m.numEntries + 1
    ensures r.0.numTombstones == TagCount(r.0.buckets, TombstoneTag)
    ensures r.1 < |r.0.buckets| && r.0.buckets[r.1] == Occupied(key, value)
    ensures r.0.numEntries + r.0.numTombstones <= |r.0.buckets|
  {
    var r1 := LoadCheck(m, hash, key, l);
    var r2 := TombstoneCheckAsWritten(r1.0, hash, key, r1.1, m.numEntries + 1);
    Commit(r2.0, hash, key, value, r2.1)
  }

  /** A hash for `int` keys: the key itself, truncated to 32 bits. */
  function IntHash(k: int): Hash32 {
    U32(k)
  }

  /** Two buckets: one empty, one tombstone, nothing stored. */
  function Leftover(): DenseMap<int, int> {
    DenseMap([Empty, Tombstone], 0, 1)
  }

  /** The leftover table satisfies the invariant. */
  lemma LeftoverValid()
    ensures Valid(Leftover(), IntHash)
    ensures Contents(Leftover().buckets) == map[]
  {
    var b := Leftover().buckets;
    assert IsPow2(2);
    assert b[..1] == [Empty] && b[..1][..0] == [];
    assert TagCount(b[..1], OccupiedTag) == TagCount(b[..1][..0], OccupiedTag) == 0;
    assert TagCount(b[..1], TombstoneTag) == TagCount(b[..1][..0], TombstoneTag) == 0;
    assert TagCount(b, OccupiedTag) == 0 && TagCount(b, TombstoneTag) == 1;
    assert b[0].Empty?;
  }

  /** Key 0 starts and ends its probe at the empty bucket 0. */
  lemma LeftoverLookup()
    ensures Probeable(Leftover().buckets)
    ensures Lookup(Leftover().buckets, IntHash, 0) == Vacant(0)
  {
    LeftoverValid();
    var b := Leftover().buckets;
    ProbeSpec(b, IntHash, 0);
    var l := Lookup(b, IntHash, 0);
    var i: nat :| i < |b| && Slot(IntHash(0), i, |b|) == l.slot && !b[l.slot].Occupied? && ChainFull(b, IntHash(0), i);
    if i > 0 {
      assert false;
    }
    assert Slot(0, 0, 2) == 0;
  }

  /**
    The counterexample: a table of two buckets, one empty and one tombstone
    (left by inserting then erasing a key hashing to 1), is valid.  Inserting
    the key 0 (hash 0) takes the empty bucket without rehashing, after which
    no bucket is empty and the probe chain of the absent key 1 never meets
    an empty bucket or the key.
  */
  lemma SmallTableLosesLastEmptyBucket()
    ensures Valid(Leftover(), IntHash)
    ensures var m := Leftover();
      var r := InsertIntoBucketAsWritten(m, IntHash, 0, 7, Lookup(m.buckets, IntHash, 0)).0;
      && r.buckets == [Occupied(0, 7), Tombstone]
      && !Valid(r, IntHash)
      && forall i: nat :: !r.buckets[Slot(IntHash(1), i, 2)].Empty? && !Holds(r.buckets[Slot(IntHash(1), i, 2)], 1)
  {
    LeftoverValid();
    var m := Leftover();
    LeftoverLookup();
    var l := Lookup(m.buckets, IntHash, 0);
    var r1 := LoadCheck(m, IntHash, 0, l);
    assert r1 == (m, l);
    var r2 := TombstoneCheckAsWritten(m, IntHash, 0, l, 1);
    assert r2 == (m, l);
    var r := Commit(m, IntHash, 0, 7, l).0;
    assert r.buckets == [Occupied(0, 7), Tombstone];
    assert !HasEmpty(r.buckets);
  }
}

=== FILE: table.dfy ===
/**
  The state of a `VmkitDenseMap`: the bucket array (`NumBuckets` is its
  length) and the two counters `NumEntries` and `NumTombstones`, with the
  invariant every public operation keeps.
*/
module Table {
  import opened Probing
  import opened Buckets
  import opened BucketLookup

  datatype DenseMap<K, V> = DenseMap(buckets: seq<Bucket<K, V>>, numEntries: nat, numTombstones: nat)

  /**
    The table invariant:
    - the array is unallocated or a power of two of at most 2^31 buckets;
    - no key is stored twice and every key is reachable by probing from its hash;
    - the counters match the buckets;
    - an allocated array keeps an empty bucket, so every probe terminates;
    - the load policy keeps the table less than three quarters full.
  */
  ghost predicate Valid<K, V>(m: DenseMap<K, V>, hash: K -> Hash32) {
    && Shaped(m.buckets, hash)
    && Probeable(m.buckets)
    && m.numEntries == TagCount(m.buckets, OccupiedTag)
    && m.numTombstones == TagCount(m.buckets, TombstoneTag)
    && (|m.buckets| > 0 ==> 4 * m.numEntries < 3 * |m.buckets|)
  }

  /** Live entries and tombstones never use up the whole array. */
  lemma RoomLeft<K, V>(m: DenseMap<K, V>, hash: K -> Hash32)
    requires Valid(m, hash)
    ensures |m.buckets| > 0 ==> m.numEntries + m.numTombstones < |m.buckets|
    ensures |m.buckets| == 0 ==> m.numEntries == 0 && m.numTombstones == 0
  {
    HasEmptyIffRoom(m.buckets);
  }

  /** A table whose counters leave room is valid once its array is shaped. */
  lemma ValidFromRoom<K, V>(m: DenseMap<K, V>, hash: K -> Hash32)
    requires Shaped(m.buckets, hash) && |m.buckets| > 0
    requires m.numEntries == TagCount(m.buckets, OccupiedTag)
    requires m.numTombstones == TagCount(m.buckets, TombstoneTag)
    requires m.numEntries + m.numTombstones < |m.buckets|
    requires 4 * m.numEntries < 3 * |m.buckets|
    ensures Valid(m, hash)
  {
    HasEmptyIffRoom(m.buckets);
  }

  /** A freshly allocated table of n empty buckets. */
  lemma FreshValid<K, V>(n: nat, hash: K -> Hash32)
    requires ValidCapacity(n)
    ensures Valid(DenseMap(Fill<K, V>(n), 0, 0), hash)
    ensures Contents(Fill<K, V>(n)) == map[]
  {
    CountFill<K, V>(n);
    ContentsFill<K, V>(n);
    if n > 0 {
      ValidFromRoom(DenseMap(Fill<K, V>(n), 0, 0), hash);
    }
  }

  lemma EntriesPositive<K, V>(m: DenseMap<K, V>, hash: K -> Hash32, s: nat)
    requires Valid(m, hash) && s < |m.buckets| && m.buckets[s].Occupied?
    ensures m.numEntries > 0
  {
    CountPositive(m.buckets, OccupiedTag);
    assert m.buckets[s].Tag() == OccupiedTag;
  }

  lemma TombstonesPositive<K, V>(m: DenseMap<K, V>, hash: K -> Hash32, s: nat)
    requires Valid(m, hash) && s < |m.buckets| && m.buckets[s].Tombstone?
    ensures m.numTombstones > 0
  {
    CountPositive(m.buckets, TombstoneTag);
    assert m.buckets[s].Tag() == TombstoneTag;
  }

  /** The array of a table the model can still insert into has at most 2^30 buckets. */
  lemma InsertableSize<K, V>(m: DenseMap<K, V>, hash: K -> Hash32)
    requires Valid(m, hash) && |m.buckets| < MaxBuckets
    ensures 2 * |m.buckets| <= MaxBuckets
  {
    if |m.buckets| > 0 {
      WordIsPow2();
      Pow2Below(|m.buckets|, MaxBuckets);
    }
  }
}
